=== FILE: README.md ===
# Transport reactor and coordinator bookkeeping, in Dafny

This project models the bookkeeping of the lock-step engine's transport layer:

- the TCP client reactor (`ClientSelector`);
- the coordinator that owns the TCP client, TCP server and UDP reactors (`CommunicationHandler`);
- the lifecycle flags every communication thread carries (`BaseCommunicationThread`);
- the change-request command (`ChangeRequest`).

Sockets, threads and the Android mailbox are abstracted away. Every operation is one atomic step over an immutable state record. The records hold maps, sets, sequences of byte buffers and an outbox of notices. Each transition is a pure function with a contract. Two reactor loops are also written as methods with loop invariants.

Modules:

- `Net`: addresses, byte buffers, `Option`/`Result`/`Outcome`, the `SelectionKey` bits (OP_READ = 1, OP_WRITE = 4, OP_CONNECT = 8), and the notices posted to an owner's mailbox.
- `ChangeRequests`: the kind codes REGISTER = 1, CHANGEOPS = 2, REMOVECLIENT = 3 and the request record.
- `Lifecycle`: the running / terminated / ignore-incoming flags and the exactly-once terminate.
- `OutputQueue`: the FIFO drain of a peer's buffer queue into a socket that takes any number of bytes up to what the head buffer holds.
- `ClientSelector`: the reactor's state and its transitions: change requests, `finishConnection`, `write`, `send`, `initiateConnection`, `sendMessage`.
- `SelectorLoop`: one pass of the run loop. It drains the pending changes, then dispatches the selected keys.
- `Coordinator`: join, disconnect, error, removal broadcast, main-selector choice, message dispatch, terminate.

The model follows the code as written. Points where the code does something a reader might not expect:

- `finishConnection`'s NoConnectionPending branch reports the failure and then still installs the Connection and announces the client.
- Its ClosedChannel branch reports the failure and installs the Connection in the channel map. The channel is closed, so its key is cancelled: setting OP_WRITE throws CancelledKeyException. That exception is not an IOException, so it leaves the key loop for the outer handler before the client is announced. The selected keys after it wait for a later pass.
- A generic IOException from `finishConnect` closes the channel. The branch reports the failure and returns early.
- A write on a key with no Connection, or for a peer with no queue, throws NullPointerException, which also leaves the key loop.
- `finishConnection` ignores the boolean `finishConnect` returns. A connect still in progress is mapped, switched to OP_WRITE and announced like a finished one, but its channel is not connected.
- The coordinator announces CLIENT_CONNECTED on every join attempt made while both TCP reactors hold the peer. Nothing makes the join idempotent.
- A CLIENT_ERROR mailbox message is read and then ignored. No removal and no event follow.
- The coordinator's own `terminate` interrupts its thread but does not quit a looper. Only the base thread's `terminate` quits one.
- An accepted `send` queues nothing, because the enqueue is still a TODO in the code.
- An IP string that does not parse is only logged. Nothing is removed and no event is posted.

The network is an input. `Opening` is how `SocketChannel.open`, `configureBlocking` and `connect` end in `initiateConnection`. `ConnectOutcome` is how `finishConnect` ends. A `WriteResult` script gives, per write call, how many bytes the socket takes or that it throws. `SelectorLoop.Env` supplies both for each channel. `Send` reads a channel's connectedness from the reactor's `connected` set: the Connection shares its channel object with the key in the code.

A REGISTER request follows the order checks happen in `AbstractSelectableChannel.register`:

1. A closed channel throws ClosedChannelException, which is caught.
2. An interest set outside OP_READ | OP_WRITE | OP_CONNECT throws IllegalArgumentException. `handleChangeRequest` does not catch it. It escapes the drain, which therefore never clears the queue, and the loop's outer handler catches it.
3. A cancelled key throws CancelledKeyException, which is caught.

`ApplyChangesFailureRepeats` shows that such a queue fails again on every later pass for as long as one of the REGISTER requests that threw names a channel that is still open. Once all of them are closed, `register` throws ClosedChannelException instead, which is caught.

## Model

| member | source | states |
|---|---|---|
| ChangeRequests.KindOf | src/com/niffy/AndEngineLockStepEngine/threads/nio/ClientSelector.java:193-256 | a stored type code selects a case exactly when it is one of REGISTER, CHANGEOPS, REMOVECLIENT; any other code selects none |
| ChangeRequests.CodeInjective | src/com/niffy/AndEngineLockStepEngine/threads/nio/ChangeRequest.java:10-12 | the three kind codes are pairwise distinct |
| ChangeRequests.KindCodeRoundTrip | src/com/niffy/AndEngineLockStepEngine/threads/nio/ChangeRequest.java:10-12 | reading a kind's code back gives the kind, and every code that selects a kind is that kind's code |
| ChangeRequests.New | src/com/niffy/AndEngineLockStepEngine/threads/nio/ChangeRequest.java:25-30 | the constructor keeps channel, type, ops, address and socket address exactly as passed, whatever type code or ops it is given |
| Lifecycle.Initial | src/com/niffy/AndEngineLockStepEngine/threads/BaseCommunicationThread.java:28-30 | a new thread is not running, not terminated, and ignoring incoming messages |
| Lifecycle.Start | src/com/niffy/AndEngineLockStepEngine/threads/nio/ClientSelector.java:56 | starting the run loop raises the running flag and leaves the other two flags alone |
| Lifecycle.TerminateWith | src/com/niffy/AndEngineLockStepEngine/threads/BaseCommunicationThread.java:74-81 | afterwards the thread is terminated; only a call that finds it not yet terminated lowers running and performs the stop effects; a later call changes nothing and does nothing |
| Lifecycle.Terminate | src/com/niffy/AndEngineLockStepEngine/threads/BaseCommunicationThread.java:74-81 | the first terminate sets terminated and clears running; with a looper it then quits the looper and interrupts the thread; with none, the looper lookup throws and the interrupt is skipped; on a terminated thread it has no effect |
| Lifecycle.TerminateIdempotent | src/com/niffy/AndEngineLockStepEngine/threads/BaseCommunicationThread.java:76 | a second terminate changes nothing and does nothing, whether or not the first found a looper |
| Lifecycle.TerminateTakesEffectOnce | src/com/niffy/AndEngineLockStepEngine/threads/BaseCommunicationThread.java:76-80 | in any run of n > 0 terminate calls the stop effects happen exactly once, or never if the thread was already terminated, and the flags end as after the first call |
| Lifecycle.SetIgnoreIncoming | src/com/niffy/AndEngineLockStepEngine/threads/BaseCommunicationThread.java:84-93 | after setIgnoreIncoming(b), isIgnoring reads b, and running and terminated are unchanged |
| Lifecycle.HandlePassedMessage | src/com/niffy/AndEngineLockStepEngine/threads/BaseCommunicationThread.java:50-51 | the base thread's message handler leaves the state unchanged |
| Lifecycle.HandleErrorMessage | src/com/niffy/AndEngineLockStepEngine/threads/BaseCommunicationThread.java:96-97 | the base thread's error handler leaves the state unchanged |
| OutputQueue.Drain | src/com/niffy/AndEngineLockStepEngine/threads/nio/ClientSelector.java:171-179 | no byte is lost or reordered: the bytes sent followed by the bytes still queued are the bytes queued before; fully written buffers leave from the front; the rest keep their order; the drain stops at the first buffer with bytes left, which stays at the head; after a write throws, the remaining buffers are untouched |
| OutputQueue.DrainRemovesOnlyWholeWrites | src/com/niffy/AndEngineLockStepEngine/threads/nio/ClientSelector.java:172-178 | a buffer leaves the queue only when the write call made on it took all its bytes |
| OutputQueue.DrainStopsAtShortWrite | src/com/niffy/AndEngineLockStepEngine/threads/nio/ClientSelector.java:172-177 | the write call on the first buffer left decides the stop: it threw exactly when the drain reports a failure, and otherwise it took fewer bytes than the buffer held and the buffer stays at the head without exactly those bytes |
| OutputQueue.DrainRoomySocket | src/com/niffy/AndEngineLockStepEngine/threads/nio/ClientSelector.java:171-179 | a socket that takes every buffer whole empties the queue and sends all its bytes in order |
| OutputQueue.DrainResumes | src/com/niffy/AndEngineLockStepEngine/threads/nio/ClientSelector.java:171-179 | a second writable event continues where the first one stopped, so both together send a prefix of the queued bytes |
| ClientSelector.FreshStart | src/com/niffy/AndEngineLockStepEngine/threads/BaseCommunicationThread.java:28-30 | a reactor that has just started is running and not terminated, has told its owner, and has nothing registered, mapped or queued, so its registration invariant holds |
| ClientSelector.Start | src/com/niffy/AndEngineLockStepEngine/threads/nio/ClientSelector.java:55-59 | the run loop raises the running flag and posts TCP_CLIENT_SELECTOR_START to its owner, changing nothing else |
| ClientSelector.CreateQueue | src/com/niffy/AndEngineLockStepEngine/threads/nio/ClientSelector.java:233 | after createQueue the Connection's IP has an output queue, and every existing queue is kept |
| ClientSelector.RequestedAddress | src/com/niffy/AndEngineLockStepEngine/threads/nio/ClientSelector.java:225-231 | a registered Connection's address is the request's socket address when it has one, else the request's IP with the TCP server port |
| ClientSelector.HandleChangeRequest | src/com/niffy/AndEngineLockStepEngine/threads/nio/ClientSelector.java:191-257 | throws exactly for a REGISTER of an open channel with invalid ops; CHANGEOPS sets the interest only for a valid key and valid ops, and otherwise, including with no key, is a no-op; REGISTER attaches a Connection to the requested address and creates its queue, keeping every existing queue and changing nothing else, or does nothing on a closed channel or cancelled key; REMOVECLIENT only hands channel and address to the shutdown routine; unknown codes do nothing; the queue, channel map and outbox are never touched, and the registration invariant is kept |
| ClientSelector.ApplyChanges | src/com/niffy/AndEngineLockStepEngine/threads/nio/ClientSelector.java:63-69 | applying the queue in order keeps the queue and the closed channels as they were and keeps the registration invariant |
| ClientSelector.ApplyChangesAppend | src/com/niffy/AndEngineLockStepEngine/threads/nio/ClientSelector.java:64-68 | changes are applied in queue order: applying a + b is applying a and then b, and a failure in a skips b |
| ClientSelector.ApplyChangesFailsIffIllegalRegister | src/com/niffy/AndEngineLockStepEngine/threads/nio/ClientSelector.java:214-245 | applying a queue throws if and only if it holds a REGISTER of an open channel with invalid ops |
| ClientSelector.ApplyChangesFailureRepeats | src/com/niffy/AndEngineLockStepEngine/threads/nio/ClientSelector.java:60-100 | a queue that throws while being applied is applied again on the next pass, since it is not cleared; with no channel reopened in between, it throws again exactly when one of the REGISTER requests that threw names a channel still open |
| ClientSelector.HandleChangeRequestGuarded | src/com/niffy/AndEngineLockStepEngine/threads/nio/ClientSelector.java:214-245 | with the IllegalArgumentException caught, an illegal REGISTER does nothing and every other request acts as in handleChangeRequest |
| ClientSelector.ApplyChangesGuarded | src/com/niffy/AndEngineLockStepEngine/threads/nio/ClientSelector.java:63-69 | the guarded drain keeps the queue and the closed channels and keeps the registration invariant |
| ClientSelector.WithoutIllegal | src/com/niffy/AndEngineLockStepEngine/threads/nio/ClientSelector.java:214-245 | every request kept is one of the queue's and does not throw, and every request of the queue that does not throw is kept |
| ClientSelector.WithoutIllegalAppend | src/com/niffy/AndEngineLockStepEngine/threads/nio/ClientSelector.java:64-68 | filtering a + b keeps the kept requests of a followed by those of b, so the filter keeps queue order |
| ClientSelector.GuardedSkipsIllegal | src/com/niffy/AndEngineLockStepEngine/threads/nio/ClientSelector.java:63-69 | the guarded drain never fails and applies exactly the requests that do not throw, in queue order |
| ClientSelector.GuardedAgrees | src/com/niffy/AndEngineLockStepEngine/threads/nio/ClientSelector.java:63-69 | on a queue that applies without throwing, the guarded drain and the drain as written agree |
| ClientSelector.ClearChangesGuarded | src/com/niffy/AndEngineLockStepEngine/threads/nio/ClientSelector.java:63-70 | with the catch in place the queue is always cleared, after every request that does not throw has been applied in order |
| ClientSelector.ApplyChangesFrame | src/com/niffy/AndEngineLockStepEngine/threads/nio/ClientSelector.java:191-257 | applying changes neither reads nor changes the queue, the next channel number or the connected channels |
| ClientSelector.AttachmentOr | src/com/niffy/AndEngineLockStepEngine/threads/nio/ClientSelector.java:109-118 | finishConnection works on the key's attached Connection, or on a new one to the channel's remote address when nothing is attached |
| ClientSelector.CloseChannel | src/com/niffy/AndEngineLockStepEngine/threads/nio/ClientSelector.java:125-131 | a closed channel is no longer connected and its key, and only that key, is cancelled; nothing else changes |
| ClientSelector.Settle | src/com/niffy/AndEngineLockStepEngine/threads/nio/ClientSelector.java:109-132 | up to the catch blocks, finishConnection attaches the Connection to the key, reports a failure exactly for the three exceptions, marks the channel connected after a finished connect and closed, with its key cancelled, after ClosedChannel or a generic IOException, and changes nothing else |
| ClientSelector.FinishConnection | src/com/niffy/AndEngineLockStepEngine/threads/nio/ClientSelector.java:105-144 | the key gets the Connection attached; the three exceptions, and only they, report a failure; ClosedChannel and a generic IOException close the Connection's channel and cancel its key; a generic IOException then leaves the channel map, the interest and the outbox alone and nothing escapes; every other outcome puts the Connection in the channel map under its IP; then a cancelled key throws on setting the interest, which escapes with interest and outbox unchanged, and a valid key gets OP_WRITE and NEW_CLIENT_CONNECTED with that IP is posted; only a finished connect marks the channel connected; other keys are untouched, nothing else in the reactor changes, and the registration invariant is kept |
| ClientSelector.FinishConnectionOnValidKey | src/com/niffy/AndEngineLockStepEngine/threads/nio/ClientSelector.java:120-143 | on a valid key the key stays valid iff the channel is not closed, the handler escapes iff finishConnect threw ClosedChannelException, and the client is announced iff finishConnect returned or threw NoConnectionPending |
| ClientSelector.SendAfterFinishConnection | src/com/niffy/AndEngineLockStepEngine/threads/nio/ClientSelector.java:120-136 | after a finished connect a send to the peer is accepted; after a connect still in progress or NoConnectionPending the peer is mapped all the same, and a send is accepted only if its channel was already connected, else refused as not connected; after ClosedChannel the peer is mapped but its channel is closed, so a send is refused as not connected; pending closure is refused first in every case |
| ClientSelector.Write | src/com/niffy/AndEngineLockStepEngine/threads/nio/ClientSelector.java:153-188 | the attached peer's queue drains FIFO: sent bytes plus remaining bytes are the old queue's bytes, and the remainder keeps its order with a partly sent head; every removed buffer was taken whole by its write call, and the write on the first buffer left either threw, exactly when the handler reports an IOException, or took fewer bytes than the buffer held; interest becomes OP_READ iff the queue ends empty and is otherwise unchanged; nothing else changes |
| ClientSelector.Send | src/com/niffy/AndEngineLockStepEngine/threads/nio/ClientSelector.java:264-288 | pending closure is refused first, whether or not the peer is mapped; then an unmapped peer is refused as not existing; then a mapped but unconnected peer as not connected; a mapped, connected peer is accepted, with no state change |
| ClientSelector.InitiateConnection | src/com/niffy/AndEngineLockStepEngine/threads/nio/ClientSelector.java:302-320 | an IOException is thrown exactly when open, configureBlocking or connect fails, and then nothing is queued: a failed open changes nothing, a failed configureBlocking uses up the channel number, a failed connect also leaves that channel closed; otherwise a new channel is opened, connected at once if connect completed, and exactly one REGISTER request for it, with OP_CONNECT and the target's IP and socket address, joins the back of the queue; nothing else changes |
| ClientSelector.InitiateThenApply | src/com/niffy/AndEngineLockStepEngine/threads/nio/ClientSelector.java:314-317 | when initiateConnection did not throw, once the reactor applies its queue, and the requests ahead of the new one apply without throwing, the new channel is registered for OP_CONNECT with a Connection to the target attached and an output queue for the target's IP, on top of what those requests registered |
| ClientSelector.RegisterConnect | src/com/niffy/AndEngineLockStepEngine/threads/nio/ClientSelector.java:214-235 | applying the REGISTER that initiateConnection queues, on a channel that is open and not yet registered, registers it for OP_CONNECT with a Connection to the target and gives the target's IP a queue |
| ClientSelector.GetQueue | src/com/niffy/AndEngineLockStepEngine/threads/nio/ClientSelector.java:324 | looking the pending-data map up with a socket address finds nothing; with an IP it finds that IP's queue |
| ClientSelector.SendMessageAsWritten | src/com/niffy/AndEngineLockStepEngine/threads/nio/ClientSelector.java:322-333 | as written, the peer's queue becomes exactly the new buffer, whatever was queued before |
| ClientSelector.SendMessage | src/com/niffy/AndEngineLockStepEngine/threads/nio/ClientSelector.java:322-333 | with the lookup under the IP, the new buffer joins the back of the peer's queue, whose bytes become the old bytes followed by the new ones; other queues are untouched |
| ClientSelector.SendMessageAsWrittenDropsQueued | src/com/niffy/AndEngineLockStepEngine/threads/nio/ClientSelector.java:324-329 | with a buffer already queued, the as-written and the corrected sendMessage leave different queues |
| SelectorLoop.Dispatch | src/com/niffy/AndEngineLockStepEngine/threads/nio/ClientSelector.java:87-93 | a valid key goes to finishConnection iff connectable, to read iff readable and not connectable, to write iff only writable, and to nothing otherwise |
| SelectorLoop.Dispatched | src/com/niffy/AndEngineLockStepEngine/threads/nio/ClientSelector.java:77-97 | a round runs at most one handler per selected key, and only on keys whose registration is valid |
| SelectorLoop.DispatchedAll | src/com/niffy/AndEngineLockStepEngine/threads/nio/ClientSelector.java:77-97 | when every selected key is valid and ready, the round runs exactly one handler per key, in selection order, with the priority handler for each |
| SelectorLoop.DispatchedAppend | src/com/niffy/AndEngineLockStepEngine/threads/nio/ClientSelector.java:77-97 | the handlers run for two selections in a row are those run for the first, followed by those run for the second |
| SelectorLoop.HandleKey | src/com/niffy/AndEngineLockStepEngine/threads/nio/ClientSelector.java:80-96 | a key whose registration is no longer valid, or that is ready for nothing, changes nothing; a readable key hands its channel to read; a write on a key with no Connection or no queue escapes and changes nothing; in a consistent reactor only finishConnection on a closed channel escapes; only finishConnection closes channels or cancels keys; every handler keeps the key set, the queue and the registration invariant |
| SelectorLoop.RoundKeeps | src/com/niffy/AndEngineLockStepEngine/threads/nio/ClientSelector.java:76-97 | however far the key loop gets, it keeps the key set, the queue and the registration invariant, and runs at most one handler per selected key |
| SelectorLoop.Round | src/com/niffy/AndEngineLockStepEngine/threads/nio/ClientSelector.java:76-97 | handling the selected keys one after another, until an exception escapes, keeps the key set, the queue and the registration invariant, and runs at most one handler per key |
| SelectorLoop.FoldFront | src/com/niffy/AndEngineLockStepEngine/threads/nio/ClientSelector.java:77-97 | a loop over keys takes its first step and then loops over the rest from there, unless that step escaped |
| SelectorLoop.FoldStopsAtEscape | src/com/niffy/AndEngineLockStepEngine/threads/nio/ClientSelector.java:94-99 | once a step has escaped, the loop takes no further step |
| SelectorLoop.RoundFront | src/com/niffy/AndEngineLockStepEngine/threads/nio/ClientSelector.java:86-99 | a round handles its first key, then the rest from the state that key left, so a write that threw an IOException does not stop the keys after it; an exception that escapes ends the round at that key |
| SelectorLoop.RoundStep | src/com/niffy/AndEngineLockStepEngine/threads/nio/ClientSelector.java:77-97 | extending the selection by one key handles that key from the state the round so far left, unless the round so far escaped |
| SelectorLoop.RoundStopsAtEscape | src/com/niffy/AndEngineLockStepEngine/threads/nio/ClientSelector.java:94-99 | the keys after the one whose handler escaped are not handled in this pass |
| SelectorLoop.RoundWithoutConnects | src/com/niffy/AndEngineLockStepEngine/threads/nio/ClientSelector.java:77-97 | in a consistent reactor with no connectable key nothing escapes, no key is cancelled and the handlers run are exactly the dispatch of the selection |
| SelectorLoop.RoundSkipsUnhandled | src/com/niffy/AndEngineLockStepEngine/threads/nio/ClientSelector.java:80-82 | a round over keys that are all invalid or ready for nothing runs no handler and changes nothing |
| SelectorLoop.DrainPendingChanges | src/com/niffy/AndEngineLockStepEngine/threads/nio/ClientSelector.java:63-70 | when no request throws, every pending change is applied in queue order and the queue is empty afterwards; when one throws, the requests before it are applied and the queue is left whole |
| SelectorLoop.ProcessSelectedKeys | src/com/niffy/AndEngineLockStepEngine/threads/nio/ClientSelector.java:76-97 | the key loop ends in exactly the state, handler trace and escape of the round: invalid keys are skipped, every other key runs exactly its priority handler, in order, on the state the previous key left, including after an IOException, and the loop stops when another exception escapes; the key set, the queue and the registration invariant are kept |
| SelectorLoop.RunOnce | src/com/niffy/AndEngineLockStepEngine/threads/nio/ClientSelector.java:60-101 | a pass applies the changes, empties the queue and then runs the round on the selected keys from the state the changes left, escaping exactly when the round does; if a change throws, the requests before the first illegal REGISTER stay applied, no key is handled and the queue stays for the next pass |
| Coordinator.RemoveClient | src/com/niffy/AndEngineLockStepEngine/threads/CommunicationHandler.java:171-176 | removal goes to the TCP client, the TCP server and the UDP reactor, in that order; afterwards none of them holds the peer and it is not joined |
| Coordinator.ClientJoin | src/com/niffy/AndEngineLockStepEngine/threads/CommunicationHandler.java:203-229 | the peer is added to the packet handler and CLIENT_CONNECTED with its IP is posted iff both TCP reactors hold it; otherwise nothing changes |
| Coordinator.ClientJoinIp | src/com/niffy/AndEngineLockStepEngine/threads/CommunicationHandler.java:185-195 | an IP that does not parse changes nothing; one that parses joins that address |
| Coordinator.ClientDisconnect | src/com/niffy/AndEngineLockStepEngine/threads/CommunicationHandler.java:243-251 | the peer is removed from all three reactors, then exactly one CLIENT_DISCONNECTED with its IP is posted |
| Coordinator.ClientDisconnectIp | src/com/niffy/AndEngineLockStepEngine/threads/CommunicationHandler.java:231-241 | an IP that does not parse causes no removal and no event |
| Coordinator.ClientError | src/com/niffy/AndEngineLockStepEngine/threads/CommunicationHandler.java:265-273 | the peer is removed from all three reactors, then exactly one CLIENT_ERROR with its IP is posted |
| Coordinator.ClientErrorIp | src/com/niffy/AndEngineLockStepEngine/threads/CommunicationHandler.java:253-263 | an IP that does not parse causes no removal and no event |
| Coordinator.SetMainSelector | src/com/niffy/AndEngineLockStepEngine/threads/CommunicationHandler.java:275-285 | the raw selection is stored even when unknown; the main selector is UDP iff the selection is the UDP flag and not the TCP client flag, and the TCP client otherwise |
| Coordinator.UnknownSelectionFallsBack | src/com/niffy/AndEngineLockStepEngine/threads/CommunicationHandler.java:281-283 | a selection matching neither flag points the main selector at the TCP client reactor |
| Coordinator.HandlePassedMessage | src/com/niffy/AndEngineLockStepEngine/threads/CommunicationHandler.java:83-113 | NETWORK_SELECTER_DEFAULT sets the main selector, to selection 2 when the entry is missing; NEW_CLIENT_CONNECTED joins; CLIENT_DISCONNECTED disconnects; CLIENT_ERROR and other messages change nothing |
| Coordinator.Terminate | src/com/niffy/AndEngineLockStepEngine/threads/CommunicationHandler.java:162-168 | the first call sets terminated, clears running and interrupts the thread, without quitting a looper; later calls change nothing |
| Coordinator.RepeatedJoinAnnouncesEachTime | src/com/niffy/AndEngineLockStepEngine/threads/CommunicationHandler.java:220-228 | with no already-joined guard, n join attempts while both reactors hold the peer post n CLIENT_CONNECTED events and add the peer to the packet handler n times |
| Coordinator.JoinNeedsBothDirections | src/com/niffy/AndEngineLockStepEngine/threads/CommunicationHandler.java:98-102 | whichever TCP direction comes first, its report announces nothing; after the other direction exists, the next report announces the peer exactly once |
| Coordinator.LeavingEndsJoin | src/com/niffy/AndEngineLockStepEngine/threads/CommunicationHandler.java:243-273 | after a disconnect or an error, a join attempt for the same peer announces nothing |

## Left out

- Real NIO is not modelled: `Selector.select`/`wakeup`, `SocketChannel.open`/`configureBlocking`/`connect`/`finishConnect`/`write`. Opening outcomes, connect outcomes and per-write byte counts are inputs. The selected-key set of a pass is an input sequence.
- Threads, `synchronized` blocks, `Looper`, `interrupt` and `Looper.quit` are not modelled. Each operation is one atomic step. Quitting a looper and interrupting a thread are recorded as effects of terminate. The base `terminate` quits the looper of the thread that calls it; the model records only that a looper is quit.
- Android `Message`/`Bundle` and `WeakThreadHandler` become the `Notice` and `Incoming` datatypes. A message whose "ip" entry is missing is not modelled.
- `CommunicationHandler.sendMessage` is left out. It serialises through the external `IMessage.write`, loops for as long as the thread runs, and its send is a TODO.
- `CommunicationHandler.run`, `connect`, `producePoolItems` and `sendMessageWithPacketHandler` are left out. They are thread start-up, stubs and pass-throughs.
- The calls `super.handlePassedMessage` and `super.removeClient` go to `CommunicationThread`, which is not part of this model.
- `BaseSelectorThread` and the server selector are not part of this model. `read`, `handleConnectionFailure` and `handleConnectionShutdown` are recorded in `Selector.calls` with their arguments; their effects are not modelled. The conclusions that depend on this are listed below under their members.
- ClientSelector.CreateQueue: a stand-in that creates an empty queue when the IP has none. The real `createQueue` is not shown.
- Coordinator.RemoveClient: each reactor is seen as the set of peers it holds. That set stands in for `containsClient`. A reactor's `removeClient` is not part of this model; it is assumed to drop the peer from its set at once, and it is logged. `Coordinator.RemoveClient`'s "no reactor holds the peer afterwards" and `Coordinator.LeavingEndsJoin` hold only under that assumption.
- `castStringToAddress` is a parameter `parse: string -> Option<InetAddress>`. `mPacketHandler.addClient` is logged in `packetClients`.
- The values of the `SelectorFlag` constants are not shown. They are a field of the coordinator state, and no relation between them is assumed.
- ClientSelector.Write: requires the key to carry a Connection and that peer to have a queue. The code throws a NullPointerException otherwise; `SelectorLoop.HandleKey` models that case as an escape that changes nothing, and `Consistent`, kept by every transition, rules it out.
- ClientSelector.FinishConnection: a key with no attachment and a channel that reports no remote address is not modelled. The code throws a NullPointerException there. Any effect of `handleConnectionFailure` beyond the closing done by `finishConnect` is not modelled; if it cancelled the key, the NoConnectionPending branch would escape too.
- ClientSelector.ApplyChanges: keeping the closed channels relies on `handleConnectionShutdown` being a recorded call with no effect. If it closed the channel, a REMOVECLIENT would add that channel to the closed set.
- ClientSelector.ApplyChangesFailsIffIllegalRegister: the if-and-only-if is over the channels closed when the drain starts, for the same reason. A REMOVECLIENT that closed a channel would turn a later illegal REGISTER on it into a caught ClosedChannelException.
- ClientSelector.ApplyChangesGuarded: keeping the closed channels rests on the same assumption about `handleConnectionShutdown`.
- SelectorLoop.HandleKey: "only finishConnection closes channels or cancels keys" relies on `read` being a recorded call with no effect and no exception.
- SelectorLoop.RoundWithoutConnects: "nothing escapes and no key is cancelled" rests on the same assumption about `read`.
- ClientSelector.HandleChangeRequest: a TCP server port outside 0..65535 is not modelled. For a REGISTER with no socket address `new InetSocketAddress` would then throw IllegalArgumentException after `register`, leaving a key with no Connection and the queue uncleared. The port is a configuration option that is not part of this model.
- SelectorLoop.Round: after an exception escapes, the keys selected after it are not handled in that pass. In the code they stay in the selector's selected-key set and come back in a later `select`; the model ends the round, and the next pass's selection is an input.
- Lifecycle.Terminate: the NullPointerException on a thread with no looper is recorded as the `NoLooper` effect; what the caller does with it is not modelled.
- `ChangeRequest.java` as shown has four fields and a four-argument constructor. The client reactor uses a five-argument constructor, `mSocketAddress` and `getAsSocketChannel`. The model adds the resolved socket address as an `Option`.
- IllegalBlockingModeException from `register` is not modelled: every channel the reactor opens is non-blocking.
- Logging is not modelled.
- `isRunning`, `isTerminated` and `isIgnoring` are the predicates `Lifecycle.IsRunning`, `IsTerminated` and `IsIgnoring`. They read one flag each and are used in the terminate and ignore contracts.

## Findings

| source | as written | input that shows it | evidently intended | confidence | as-written member | corrected member |
|---|---|---|---|---|---|---|
| src/com/niffy/AndEngineLockStepEngine/threads/nio/ClientSelector.java:324 | `sendMessage` looks its queue up with the Connection's InetSocketAddress. The pending-data map is keyed by InetAddress (lines 168 and 327), so the lookup always misses. A new one-buffer queue then replaces the peer's queue | a peer whose queue already holds one unsent buffer; a second `sendMessage` leaves only the second buffer queued | look the queue up under the InetAddress and append to it | high that the lookup misses; not executed | ClientSelector.SendMessageAsWritten, shown by ClientSelector.SendMessageAsWrittenDropsQueued | ClientSelector.SendMessage |
| src/com/niffy/AndEngineLockStepEngine/threads/nio/ClientSelector.java:214-245 | `handleChangeRequest` catches ClosedChannelException and CancelledKeyException from `register` but not IllegalArgumentException. The exception escapes the drain before `mPendingChanges.clear()` (line 69), and the outer handler (line 98) catches it. The queue is never cleared, so every later pass throws again before `select()` and no key is handled again | a REGISTER request with interest 2 for an open channel in the queue; the only REGISTER this file queues (line 315) uses OP_CONNECT, so such a request must come from code outside this model | catch IllegalArgumentException like the other register exceptions, so the request is skipped and the queue is cleared | low: the failure is certain once such a request is queued, but no shown caller queues one, and the intent is inferred from the sibling catches; not executed | ClientSelector.ApplyChangesFailureRepeats, with SelectorLoop.RunOnce | ClientSelector.ClearChangesGuarded, proved by ClientSelector.GuardedSkipsIllegal |

The run loop in `SelectorLoop` follows the code as written for the change queue, so that a pass which throws can be stated; the corrected drain `ClientSelector.ClearChangesGuarded` stands beside it. `ClientSelector.SendMessage` is the corrected sendMessage; nothing in the model calls the as-written one.

=== FILE: change_request.dfy ===
/**
 * The command value that a foreign thread queues for a reactor: register a
 * channel, change a channel's interest operations, or remove a client.
 */
module ChangeRequests {
  import opened Net

  const RegisterCode: int := 1
  const ChangeOpsCode: int := 2
  const RemoveClientCode: int := 3

  datatype Kind = Register | ChangeOps | RemoveClient

  /** The integer type code a kind is stored as. */
  function Code(k: Kind): int
  {
    match k
    case Register => RegisterCode
    case ChangeOps => ChangeOpsCode
    case RemoveClient => RemoveClientCode
  }

  /** How the reactor's switch reads a stored type code: codes with no case select nothing. */
  function KindOf(code: int): (k: Option<Kind>)
    ensures k.Some? <==> code == RegisterCode || code == ChangeOpsCode || code == RemoveClientCode
  {
    if code == RegisterCode then Some(Register)
    else if code == ChangeOpsCode then Some(ChangeOps)
    else if code == RemoveClientCode then Some(RemoveClient)
    else None
  }

  /** Distinct kinds are stored under distinct codes. */
  lemma CodeInjective(k1: Kind, k2: Kind)
    ensures Code(k1) == Code(k2) ==> k1 == k2
  {
  }

  /** Reading a code back recovers the kind, and every code that selects a kind is that kind's code. */
  lemma KindCodeRoundTrip(k: Kind, code: int)
    ensures KindOf(Code(k)) == Some(k)
    ensures KindOf(code).Some? ==> Code(KindOf(code).value) == code
  {
  }

  /**
   * A queued request. `socketAddress` is the resolved remote endpoint the
   * five-argument constructor may carry; it is absent when only the peer's
   * IP address is known.
   */
  datatype ChangeRequest = ChangeRequest(
    channel: ChannelId,
    kind: int,
    ops: int,
    address: InetAddress,
    socketAddress: Option<SocketAddress>)

  /** The constructor: every argument is stored as passed, with no check of the type code or the ops. */
  function New(channel: ChannelId, kind: int, ops: int, address: InetAddress,
               socketAddress: Option<SocketAddress>): (r: ChangeRequest)
    ensures r.channel == channel && r.address == address && r.socketAddress == socketAddress
    ensures r.kind == kind && r.ops == ops
  {
    ChangeRequest(channel, kind, ops, address, socketAddress)
  }
}

=== FILE: client_selector.dfy ===
/**
 * The bookkeeping of the TCP client reactor: its queue of change requests,
 * its selection-key registrations, the channel map and pending-output map
 * keyed by peer IP address, the pending-closure set, and the transitions
 * that apply change requests, finish connections, flush output and accept
 * sends. Each transition is one atomic step of the reactor thread.
 */
module ClientSelector {
  import opened Net
  import opened ChangeRequests
  import opened OutputQueue
  import Lifecycle

  /** A peer's remote address and the channel to it. */
  datatype Connection = Connection(address: SocketAddress, channel: ChannelId)

  /** A selection key: its interest set, whether it is still valid, and its attachment. */
  datatype Registration = Registration(interest: int, valid: bool, attachment: Option<Connection>)

  /**
   * Calls into the shared selector base class, whose code is not part of
   * this model; the reactor records that it made them and with what.
   */
  datatype Call =
    | ConnectionFailure(channel: ChannelId, ip: InetAddress)
    | ConnectionShutdown(channel: ChannelId, ip: InetAddress)
    | ReadFrom(channel: ChannelId)

  datatype Selector = Selector(
    flags: Lifecycle.Flags,
    serverPort: int,                              // TCP server port from the options
    pendingChanges: seq<ChangeRequest>,
    keys: map<ChannelId, Registration>,           // channel.keyFor(selector)
    closed: set<ChannelId>,                       // channels that are no longer open
    connected: set<ChannelId>,                    // channels whose connect has finished
    nextChannel: ChannelId,                       // the next channel SocketChannel.open returns
    channelMap: map<InetAddress, Connection>,
    pendingData: map<InetAddress, seq<Buffer>>,
    pendingClosure: set<InetAddress>,
    calls: seq<Call>,
    outbox: seq<Notice>)

  /**
   * Every registered key carries a Connection to its own channel, and that
   * Connection's peer has an output queue: the write handler dereferences
   * both.
   */
  predicate Consistent(s: Selector)
  {
    forall ch | ch in s.keys ::
      && s.keys[ch].attachment.Some?
      && s.keys[ch].attachment.value.channel == ch
      && s.keys[ch].attachment.value.address.ip in s.pendingData
  }

  /** A reactor before its thread starts. */
  function Fresh(serverPort: int): (s: Selector)
    ensures Consistent(s)
    ensures s.pendingChanges == [] && s.keys == map[] && s.channelMap == map[] && s.pendingData == map[]
    ensures s.flags == Lifecycle.Initial()
  {
    Selector(Lifecycle.Initial(), serverPort, [], map[], {}, {}, 0, map[], map[], {}, [], [])
  }

  /** The run loop's start: raise the running flag and announce the selector to the owner. */
  function Start(s: Selector): (r: Selector)
    ensures Lifecycle.IsRunning(r.flags)
    ensures r.outbox == s.outbox + [SelectorStarted]
    ensures r == s.(flags := r.flags, outbox := r.outbox)
  {
    s.(flags := Lifecycle.Start(s.flags), outbox := s.outbox + [SelectorStarted])
  }

  /** A reactor that has just started: running, its owner told, nothing registered or queued. */
  lemma FreshStart(serverPort: int)
    ensures var s := Start(Fresh(serverPort));
            && Consistent(s)
            && Lifecycle.IsRunning(s.flags) && !Lifecycle.IsTerminated(s.flags)
            && s.outbox == [SelectorStarted]
            && s.pendingChanges == [] && s.keys == map[] && s.channelMap == map[] && s.pendingData == map[]
  {
  }

  /** Interest sets a SocketChannel accepts: subsets of OP_READ | OP_WRITE | OP_CONNECT. */
  predicate ValidOps(ops: int)
  {
    0 <= ops < 16 && (ops / 2) % 2 == 0
  }

  /** The peer output queue a new Connection gets; an existing queue is kept. */
  function CreateQueue(s: Selector, con: Connection): (r: Selector)
    ensures r.pendingData.Keys == s.pendingData.Keys + {con.address.ip}
    ensures forall a | a in s.pendingData :: r.pendingData[a] == s.pendingData[a]
    ensures r == s.(pendingData := r.pendingData)
  {
    if con.address.ip in s.pendingData then s
    else s.(pendingData := s.pendingData[con.address.ip := []])
  }

  /** The remote address a REGISTER request's Connection gets. */
  function RequestedAddress(req: ChangeRequest, serverPort: int): (a: SocketAddress)
    ensures req.socketAddress.Some? ==> a == req.socketAddress.value
    ensures req.socketAddress.None? ==> a.ip == req.address && a.port == serverPort
  {
    match req.socketAddress
    case Some(sa) => sa
    case None => SocketAddress(req.address, serverPort)
  }

  /** The exception that escapes handleChangeRequest. */
  datatype Fault = IllegalInterestOps

  /**
   * A REGISTER request on an open channel with an interest set the channel
   * rejects: register throws IllegalArgumentException, which no handler in
   * handleChangeRequest catches.
   */
  predicate IllegalRegister(closed: set<ChannelId>, req: ChangeRequest)
  {
    KindOf(req.kind) == Some(Register) && req.channel !in closed && !ValidOps(req.ops)
  }

  /** A REGISTER request that registers: open channel, valid ops, no cancelled key. */
  predicate Registers(s: Selector, req: ChangeRequest)
  {
    && KindOf(req.kind) == Some(Register)
    && req.channel !in s.closed
    && ValidOps(req.ops)
    && !(req.channel in s.keys && !s.keys[req.channel].valid)
  }

  /** A CHANGEOPS request that changes something: a valid key and a valid interest set. */
  predicate ChangesOps(s: Selector, req: ChangeRequest)
  {
    && KindOf(req.kind) == Some(ChangeOps)
    && req.channel in s.keys
    && s.keys[req.channel].valid
    && ValidOps(req.ops)
  }

  /**
   * handleChangeRequest. CHANGEOPS sets the key's interest set; with no key,
   * a cancelled key or invalid ops it is logged and does nothing. REGISTER
   * registers the channel, attaches a Connection to the request's socket
   * address, or else to the request's IP and the TCP server port, and
   * creates the peer's queue; a closed channel or a cancelled key is logged
   * and does nothing. REMOVECLIENT hands the channel and address to the
   * connection-shutdown routine. Any other type code does nothing.
   */
  function HandleChangeRequest(s: Selector, req: ChangeRequest): (r: Result<Selector, Fault>)
    ensures r.Failure? <==> IllegalRegister(s.closed, req)
    ensures r.Success? ==> && r.value.pendingChanges == s.pendingChanges
                           && r.value.closed == s.closed
                           && r.value.channelMap == s.channelMap
                           && r.value.outbox == s.outbox
                           && r.value.keys.Keys >= s.keys.Keys
    ensures r.Success? && Consistent(s) ==> Consistent(r.value)
    ensures KindOf(req.kind).None? ==> r == Success(s)
    ensures KindOf(req.kind) == Some(ChangeOps) ==>
              r == Success(if ChangesOps(s, req)
                           then s.(keys := s.keys[req.channel := s.keys[req.channel].(interest := req.ops)])
                           else s)
    ensures Registers(s, req) ==>
              && r.Success?
              && r.value.keys == s.keys[req.channel := Registration(req.ops, true,
                                   Some(Connection(RequestedAddress(req, s.serverPort), req.channel)))]
              && r.value.pendingData.Keys == s.pendingData.Keys + {RequestedAddress(req, s.serverPort).ip}
              && (forall a | a in s.pendingData :: r.value.pendingData[a] == s.pendingData[a])
              && r.value == s.(keys := r.value.keys, pendingData := r.value.pendingData)
    ensures KindOf(req.kind) == Some(Register) && !Registers(s, req) && !IllegalRegister(s.closed, req) ==>
              r == Success(s)
    ensures KindOf(req.kind) == Some(RemoveClient) ==>
              r == Success(s.(calls := s.calls + [ConnectionShutdown(req.channel, req.address)]))
  {
    match KindOf(req.kind)
    case None => Success(s)
    case Some(ChangeOps) =>
      if ChangesOps(s, req)
      then Success(s.(keys := s.keys[req.channel := s.keys[req.channel].(interest := req.ops)]))
      else Success(s)
    case Some(Register) =>
      if req.channel in s.closed then Success(s)
      else if !ValidOps(req.ops) then Failure(IllegalInterestOps)
      else if req.channel in s.keys && !s.keys[req.channel].valid then Success(s)
      else
        var con := Connection(RequestedAddress(req, s.serverPort), req.channel);
        Success(CreateQueue(s.(keys := s.keys[req.channel := Registration(req.ops, true, Some(con))]), con))
    case Some(RemoveClient) =>
      Success(s.(calls := s.calls + [ConnectionShutdown(req.channel, req.address)]))
  }

  /**
   * The pending changes applied one after another, in queue order, until
   * one of them throws.
   */
  function ApplyChanges(s: Selector, reqs: seq<ChangeRequest>): (r: Result<Selector, Fault>)
    ensures r.Success? ==> r.value.pendingChanges == s.pendingChanges && r.value.closed == s.closed
    ensures r.Success? && Consistent(s) ==> Consistent(r.value)
    decreases |reqs|
  {
    if reqs == [] then Success(s)
    else
      match HandleChangeRequest(s, reqs[0])
      case Failure(e) => Failure(e)
      case Success(t) => ApplyChanges(t, reqs[1..])
  }

  /** Applying a + b is applying a, then b to the result. */
  lemma {:induction false} ApplyChangesAppend(s: Selector, a: seq<ChangeRequest>, b: seq<ChangeRequest>)
    ensures ApplyChanges(s, a + b) == match ApplyChanges(s, a)
                                      case Success(t) => ApplyChanges(t, b)
                                      case Failure(e) => Failure(e)
    decreases |a|
  {
    if a == [] {
      assert a + b == b;
    } else {
      assert (a + b)[0] == a[0];
      assert (a + b)[1..] == a[1..] + b;
      match HandleChangeRequest(s, a[0])
      case Failure(_) =>
      case Success(t) => ApplyChangesAppend(t, a[1..], b);
    }
  }

  /** Applying the queue fails exactly when some request in it is an illegal REGISTER. */
  lemma {:induction false} ApplyChangesFailsIffIllegalRegister(s: Selector, reqs: seq<ChangeRequest>)
    ensures ApplyChanges(s, reqs).Failure? <==>
              exists i | 0 <= i < |reqs| :: IllegalRegister(s.closed, reqs[i])
    decreases |reqs|
  {
    if reqs != [] {
      match HandleChangeRequest(s, reqs[0])
      case Failure(_) =>
        assert IllegalRegister(s.closed, reqs[0]);
      case Success(t) =>
        ApplyChangesFailsIffIllegalRegister(t, reqs[1..]);
        if exists i | 0 <= i < |reqs| :: IllegalRegister(s.closed, reqs[i]) {
          var i :| 0 <= i < |reqs| && IllegalRegister(s.closed, reqs[i]);
          assert i != 0;
          assert IllegalRegister(t.closed, reqs[1..][i - 1]);
        }
        if exists j | 0 <= j < |reqs[1..]| :: IllegalRegister(t.closed, reqs[1..][j]) {
          var j :| 0 <= j < |reqs[1..]| && IllegalRegister(t.closed, reqs[1..][j]);
          assert IllegalRegister(s.closed, reqs[j + 1]);
        }
    }
  }

  /**
   * A queue that fails to apply is retried on every later pass, from a
   * state whose closed channels include the ones closed before: it fails
   * again exactly while one of the REGISTER requests that threw names a
   * channel that is still open. Once every such channel is closed, register
   * throws ClosedChannelException instead, which is caught.
   */
  lemma ApplyChangesFailureRepeats(s: Selector, t: Selector, reqs: seq<ChangeRequest>)
    requires ApplyChanges(s, reqs).Failure?
    requires s.closed <= t.closed
    ensures ApplyChanges(t, reqs).Failure? <==>
              exists i | 0 <= i < |reqs| :: IllegalRegister(s.closed, reqs[i]) && reqs[i].channel !in t.closed
  {
    ApplyChangesFailsIffIllegalRegister(t, reqs);
    assert forall i | 0 <= i < |reqs| ::
             IllegalRegister(t.closed, reqs[i]) <==> IllegalRegister(s.closed, reqs[i]) && reqs[i].channel !in t.closed;
  }

  /**
   * handleChangeRequest with the IllegalArgumentException from register
   * caught and logged like the other exceptions of the REGISTER case: an
   * illegal REGISTER then does nothing.
   */
  function HandleChangeRequestGuarded(s: Selector, req: ChangeRequest): (r: Selector)
    ensures IllegalRegister(s.closed, req) ==> r == s
    ensures !IllegalRegister(s.closed, req) ==> HandleChangeRequest(s, req) == Success(r)
  {
    match HandleChangeRequest(s, req)
    case Failure(_) => s
    case Success(t) => t
  }

  /** The pending changes applied in order with the guarded handler, which never throws. */
  function ApplyChangesGuarded(s: Selector, reqs: seq<ChangeRequest>): (r: Selector)
    ensures r.pendingChanges == s.pendingChanges && r.closed == s.closed
    ensures Consistent(s) ==> Consistent(r)
    decreases |reqs|
  {
    if reqs == [] then s
    else ApplyChangesGuarded(HandleChangeRequestGuarded(s, reqs[0]), reqs[1..])
  }

  /** The requests of a queue that do not throw, in queue order. */
  function WithoutIllegal(closed: set<ChannelId>, reqs: seq<ChangeRequest>): (legal: seq<ChangeRequest>)
    ensures |legal| <= |reqs|
    ensures forall i | 0 <= i < |legal| :: !IllegalRegister(closed, legal[i]) && legal[i] in reqs
    ensures forall i | 0 <= i < |reqs| && !IllegalRegister(closed, reqs[i]) :: reqs[i] in legal
    decreases |reqs|
  {
    if reqs == [] then []
    else if IllegalRegister(closed, reqs[0]) then WithoutIllegal(closed, reqs[1..])
    else [reqs[0]] + WithoutIllegal(closed, reqs[1..])
  }

  /** Dropping the illegal requests works piecewise, so the kept requests stay in queue order. */
  lemma {:induction false} WithoutIllegalAppend(closed: set<ChannelId>, a: seq<ChangeRequest>, b: seq<ChangeRequest>)
    ensures WithoutIllegal(closed, a + b) == WithoutIllegal(closed, a) + WithoutIllegal(closed, b)
    decreases |a|
  {
    if a == [] {
      assert a + b == b;
    } else {
      assert (a + b)[0] == a[0];
      assert (a + b)[1..] == a[1..] + b;
      WithoutIllegalAppend(closed, a[1..], b);
    }
  }

  /**
   * The guarded drain applies exactly the requests that do not throw, in
   * order, and succeeds on every queue.
   */
  lemma {:induction false} GuardedSkipsIllegal(s: Selector, reqs: seq<ChangeRequest>)
    ensures ApplyChanges(s, WithoutIllegal(s.closed, reqs)) == Success(ApplyChangesGuarded(s, reqs))
    decreases |reqs|
  {
    if reqs != [] {
      var t := HandleChangeRequestGuarded(s, reqs[0]);
      GuardedSkipsIllegal(t, reqs[1..]);
      if !IllegalRegister(s.closed, reqs[0]) {
        var w := [reqs[0]] + WithoutIllegal(s.closed, reqs[1..]);
        assert w[0] == reqs[0] && w[1..] == WithoutIllegal(t.closed, reqs[1..]);
      }
    }
  }

  /** Dropping the illegal requests from a queue that has none leaves it as it is. */
  lemma {:induction false} WithoutIllegalKeepsLegal(closed: set<ChannelId>, reqs: seq<ChangeRequest>)
    requires forall i | 0 <= i < |reqs| :: !IllegalRegister(closed, reqs[i])
    ensures WithoutIllegal(closed, reqs) == reqs
    decreases |reqs|
  {
    if reqs != [] {
      assert !IllegalRegister(closed, reqs[0]);
      WithoutIllegalKeepsLegal(closed, reqs[1..]);
    }
  }

  /** On a queue with no illegal REGISTER, the guarded drain is the drain as written. */
  lemma GuardedAgrees(s: Selector, reqs: seq<ChangeRequest>)
    requires ApplyChanges(s, reqs).Success?
    ensures ApplyChanges(s, reqs) == Success(ApplyChangesGuarded(s, reqs))
  {
    ApplyChangesFailsIffIllegalRegister(s, reqs);
    WithoutIllegalKeepsLegal(s.closed, reqs);
    GuardedSkipsIllegal(s, reqs);
  }

  /**
   * The lines of the run loop that drain the change queue, with the
   * IllegalArgumentException caught: every request that does not throw is
   * applied, in order, and the queue is always cleared.
   */
  function ClearChangesGuarded(s: Selector): (r: Selector)
    ensures r.pendingChanges == []
    ensures ApplyChanges(s, WithoutIllegal(s.closed, s.pendingChanges)) == Success(r.(pendingChanges := s.pendingChanges))
    ensures Consistent(s) ==> Consistent(r)
  {
    GuardedSkipsIllegal(s, s.pendingChanges);
    var t := ApplyChangesGuarded(s, s.pendingChanges);
    assert t.(pendingChanges := []).(pendingChanges := s.pendingChanges) == t;
    t.(pendingChanges := [])
  }

  /**
   * How finishConnect ends: it returns true, returns false because the
   * connect is still in progress, or throws one of three exceptions.
   */
  datatype ConnectOutcome = Connected | StillPending | NoConnectionPending | ChannelClosed | ConnectIOError

  /** The outcomes that reach handleConnectionFailure. */
  predicate Fails(outcome: ConnectOutcome)
  {
    outcome == NoConnectionPending || outcome == ChannelClosed || outcome == ConnectIOError
  }

  /**
   * The outcomes after which the channel is closed: ClosedChannelException
   * means it already was, and on any other IOException finishConnect closes
   * it before rethrowing.
   */
  predicate Closes(outcome: ConnectOutcome)
  {
    outcome == ChannelClosed || outcome == ConnectIOError
  }

  /** Closing a channel: it is no longer open or connected, and its key is cancelled. */
  function CloseChannel(s: Selector, c: ChannelId): (r: Selector)
    ensures r.closed == s.closed + {c} && r.connected == s.connected - {c}
    ensures r.keys.Keys == s.keys.Keys
    ensures c in s.keys ==> r.keys[c] == s.keys[c].(valid := false)
    ensures forall d | d in s.keys && d != c :: r.keys[d] == s.keys[d]
    ensures r == s.(closed := r.closed, connected := r.connected, keys := r.keys)
  {
    s.(closed := s.closed + {c},
       connected := s.connected - {c},
       keys := if c in s.keys then s.keys[c := s.keys[c].(valid := false)] else s.keys)
  }

  /** The key's Connection, or a new one to the channel's remote address when nothing is attached. */
  function AttachmentOr(s: Selector, ch: ChannelId, remote: SocketAddress): (con: Connection)
    requires ch in s.keys
    ensures s.keys[ch].attachment.Some? ==> con == s.keys[ch].attachment.value
    ensures s.keys[ch].attachment.None? ==> con == Connection(remote, ch)
  {
    s.keys[ch].attachment.GetOr(Connection(remote, ch))
  }

  /**
   * The state after a key handler, and whether an exception other than an
   * IOException escaped it to the run loop's outer handler.
   */
  datatype Handled = Handled(state: Selector, escaped: bool)

  /**
   * finishConnection on the key of channel `ch`; `remote` is the address the
   * channel reports when the key has no attachment. The three exceptions
   * report the failure; ClosedChannel and a generic IOException leave the
   * channel closed and its key cancelled. A generic IOException then
   * returns. Every other outcome, including a connect still in progress
   * (finishConnect's result is ignored), puts the Connection in the channel
   * map and sets OP_WRITE; on a cancelled key that throws
   * CancelledKeyException, which escapes before the owner is told, and
   * otherwise the owner is told about a new client. Only a finished connect
   * marks the Connection's channel connected.
   */
  function FinishConnection(s: Selector, ch: ChannelId, outcome: ConnectOutcome, remote: SocketAddress): (r: Handled)
    requires ch in s.keys
    ensures var con := AttachmentOr(s, ch, remote);
            var t := r.state;
            && t.keys.Keys == s.keys.Keys
            && t.keys[ch].attachment == Some(con)
            && t.keys[ch].valid == (s.keys[ch].valid && !(Closes(outcome) && con.channel == ch))
            && (forall c | c in s.keys && c != ch ::
                  t.keys[c] == if Closes(outcome) && c == con.channel then s.keys[c].(valid := false) else s.keys[c])
            && t.calls == s.calls + (if Fails(outcome) then [ConnectionFailure(con.channel, con.address.ip)] else [])
            && t.closed == (if Closes(outcome) then s.closed + {con.channel} else s.closed)
            && t.connected == (if outcome == Connected then s.connected + {con.channel}
                               else if Closes(outcome) then s.connected - {con.channel}
                               else s.connected)
            && (r.escaped <==> outcome != ConnectIOError && !t.keys[ch].valid)
            && t.channelMap == (if outcome == ConnectIOError then s.channelMap else s.channelMap[con.address.ip := con])
            && (outcome == ConnectIOError || r.escaped ==>
                  t.outbox == s.outbox && t.keys[ch].interest == s.keys[ch].interest)
            && (outcome != ConnectIOError && !r.escaped ==>
                  && t.keys[ch].interest == OpWrite
                  && t.outbox == s.outbox + [NewClientConnected(HostAddress(con.address.ip))])
    ensures r.state == s.(keys := r.state.keys, calls := r.state.calls, closed := r.state.closed,
                          connected := r.state.connected, channelMap := r.state.channelMap, outbox := r.state.outbox)
    ensures Consistent(s) ==> Consistent(r.state)
  {
    var con := AttachmentOr(s, ch, remote);
    var ip := con.address.ip;
    var settled := Settle(s, ch, outcome, con);
    var mapped := settled.(channelMap := s.channelMap[ip := con]);
    var r :=
      if outcome == ConnectIOError then Handled(settled, false)
      else if !mapped.keys[ch].valid then Handled(mapped, true)
      else
        Handled(mapped.(keys := mapped.keys[ch := mapped.keys[ch].(interest := OpWrite)],
                        outbox := s.outbox + [NewClientConnected(HostAddress(ip))]),
                false);
    SameAttachmentsKeepConsistent(s, r.state);
    r
  }

  /**
   * finishConnection up to its catch blocks: the key gets `con` attached,
   * a failure is reported, and the channel ends connected or closed as
   * finishConnect left it.
   */
  function Settle(s: Selector, ch: ChannelId, outcome: ConnectOutcome, con: Connection): (t: Selector)
    requires ch in s.keys
    ensures t.keys.Keys == s.keys.Keys
    ensures t.keys[ch].attachment == Some(con) && t.keys[ch].interest == s.keys[ch].interest
    ensures t.keys[ch].valid == (s.keys[ch].valid && !(Closes(outcome) && con.channel == ch))
    ensures forall c | c in s.keys && c != ch ::
              t.keys[c] == if Closes(outcome) && c == con.channel then s.keys[c].(valid := false) else s.keys[c]
    ensures t.calls == s.calls + (if Fails(outcome) then [ConnectionFailure(con.channel, con.address.ip)] else [])
    ensures t.closed == (if Closes(outcome) then s.closed + {con.channel} else s.closed)
    ensures t.connected == (if outcome == Connected then s.connected + {con.channel}
                            else if Closes(outcome) then s.connected - {con.channel}
                            else s.connected)
    ensures t == s.(keys := t.keys, calls := t.calls, closed := t.closed, connected := t.connected)
  {
    var attached := s.(keys := s.keys[ch := s.keys[ch].(attachment := Some(con))]);
    var reported := if Fails(outcome) then attached.(calls := s.calls + [ConnectionFailure(con.channel, con.address.ip)]) else attached;
    if outcome == Connected then reported.(connected := s.connected + {con.channel})
    else if Closes(outcome) then CloseChannel(reported, con.channel)
    else reported
  }

  /** A step that keeps every key's Connection and every queue keeps the registration invariant. */
  lemma SameAttachmentsKeepConsistent(s: Selector, t: Selector)
    requires t.keys.Keys == s.keys.Keys && t.pendingData == s.pendingData
    requires forall c | c in s.keys && s.keys[c].attachment.Some? :: t.keys[c].attachment == s.keys[c].attachment
    ensures Consistent(s) ==> Consistent(t)
  {
  }

  /**
   * finishConnection on a valid key of a consistent reactor, as the run loop
   * calls it: the key is cancelled exactly when the channel is closed; the
   * owner is told about a new client exactly when finishConnect returned or
   * threw NoConnectionPending; a ClosedChannel outcome escapes the handler.
   */
  lemma FinishConnectionOnValidKey(s: Selector, ch: ChannelId, outcome: ConnectOutcome, remote: SocketAddress)
    requires Consistent(s) && ch in s.keys && s.keys[ch].valid
    ensures var r := FinishConnection(s, ch, outcome, remote);
            && (r.state.keys[ch].valid <==> !Closes(outcome))
            && (r.escaped <==> outcome == ChannelClosed)
            && r.state.outbox == s.outbox +
                 (if Closes(outcome) then [] else [NewClientConnected(HostAddress(AttachmentOr(s, ch, remote).address.ip))])
  {
  }

  /**
   * What a send to the peer sees after finishConnection got past the
   * connect: after a finished connect it is accepted; after a connect still
   * in progress or NoConnectionPending the Connection is mapped, and the send
   * is accepted only if its channel was already connected; after
   * ClosedChannel it is mapped but closed, so the send is refused as not
   * connected. A peer pending closure is refused first in every case.
   */
  lemma SendAfterFinishConnection(s: Selector, ch: ChannelId, outcome: ConnectOutcome, remote: SocketAddress)
    requires ch in s.keys && outcome != ConnectIOError
    ensures var con := AttachmentOr(s, ch, remote);
            var ip := con.address.ip;
            var r := FinishConnection(s, ch, outcome, remote).state;
            && (ip in s.pendingClosure ==> Send(r, ip, []) == Fail(PendingClosure))
            && (ip !in s.pendingClosure && outcome == Connected ==> Send(r, ip, []) == Pass)
            && (ip !in s.pendingClosure && (outcome == StillPending || outcome == NoConnectionPending) ==>
                  Send(r, ip, []) == if con.channel in s.connected then Pass else Fail(NotConnected))
            && (ip !in s.pendingClosure && outcome == ChannelClosed ==> Send(r, ip, []) == Fail(NotConnected))
  {
  }

  /** The result of the write handler: new state, bytes the socket took, whether a write threw. */
  datatype Written = Written(state: Selector, sent: seq<byte>, ioError: bool)

  /**
   * write on the key of channel `ch`: drain the attached peer's queue into
   * the socket, oldest buffer first, stopping at the first buffer with bytes
   * left; with nothing left, fall back to read interest.
   */
  function Write(s: Selector, ch: ChannelId, socket: seq<WriteResult>): (r: Written)
    requires ch in s.keys && s.keys[ch].attachment.Some?
    requires s.keys[ch].attachment.value.address.ip in s.pendingData
    ensures var ip := s.keys[ch].attachment.value.address.ip;
            var q := s.pendingData[ip];
            && ip in r.state.pendingData
            && r.sent + Flatten(r.state.pendingData[ip]) == Flatten(q)
            && Remainder(q, r.state.pendingData[ip])
            && (!r.ioError && r.state.pendingData[ip] != [] ==> |r.state.pendingData[ip][0]| > 0)
            && (r.ioError ==> r.state.pendingData[ip] != [] && r.state.pendingData[ip] == q[|q| - |r.state.pendingData[ip]|..])
            && ch in r.state.keys
            && r.state.keys[ch].interest == (if r.state.pendingData[ip] == [] then OpRead else s.keys[ch].interest)
            && r.state == s.(pendingData := s.pendingData[ip := r.state.pendingData[ip]],
                             keys := s.keys[ch := s.keys[ch].(interest := r.state.keys[ch].interest)])
    ensures var q := s.pendingData[s.keys[ch].attachment.value.address.ip];
            var left := r.state.pendingData[s.keys[ch].attachment.value.address.ip];
            var m := |q| - |left|;
            && (forall i | 0 <= i < m :: Answer(socket, i).Took? && Answer(socket, i).n >= |q[i]|)
            && (m < |q| ==>
                  && (Answer(socket, m).Broken? <==> r.ioError)
                  && (Answer(socket, m).Took? ==> Answer(socket, m).n < |q[m]| && left[0] == q[m][Answer(socket, m).n..]))
    ensures Consistent(s) ==> Consistent(r.state)
  {
    var ip := s.keys[ch].attachment.value.address.ip;
    DrainRemovesOnlyWholeWrites(s.pendingData[ip], socket);
    DrainStopsAtShortWrite(s.pendingData[ip], socket);
    var d := Drain(s.pendingData[ip], socket);
    var interest := if d.queue == [] then OpRead else s.keys[ch].interest;
    RequeueKeepsConsistent(s, ch, interest, ip, d.queue);
    Written(s.(pendingData := s.pendingData[ip := d.queue],
               keys := s.keys[ch := s.keys[ch].(interest := interest)]),
            d.sent, d.failed)
  }

  /** Replacing a peer's queue and a key's interest set keeps every key's Connection and queue. */
  lemma RequeueKeepsConsistent(s: Selector, ch: ChannelId, interest: int, ip: InetAddress, q: seq<Buffer>)
    requires ch in s.keys && ip in s.pendingData
    ensures Consistent(s) ==>
              Consistent(s.(pendingData := s.pendingData[ip := q], keys := s.keys[ch := s.keys[ch].(interest := interest)]))
  {
  }

  /** Why send refuses a peer. */
  datatype SendError = PendingClosure | DoesNotExist | NotConnected

  /**
   * send: a peer pending closure is refused first, then an unmapped peer,
   * then a mapped peer whose channel is not connected. Accepting a send
   * queues nothing.
   */
  function Send(s: Selector, a: InetAddress, data: seq<byte>): (r: Outcome<SendError>)
    ensures r == Fail(PendingClosure) <==> a in s.pendingClosure
    ensures r == Fail(DoesNotExist) <==> a !in s.pendingClosure && a !in s.channelMap
    ensures r == Fail(NotConnected) <==>
              a !in s.pendingClosure && a in s.channelMap && s.channelMap[a].channel !in s.connected
    ensures r == Pass <==>
              a !in s.pendingClosure && a in s.channelMap && s.channelMap[a].channel in s.connected
  {
    if a in s.pendingClosure then Fail(PendingClosure)
    else if a !in s.channelMap then Fail(DoesNotExist)
    else if s.channelMap[a].channel !in s.connected then Fail(NotConnected)
    else Pass
  }

  /**
   * How opening the channel ends: SocketChannel.open, configureBlocking and
   * connect succeed with the connect in progress or already complete, or
   * one of them throws an IOException.
   */
  datatype Opening = ConnectPending | ConnectedAtOnce | OpenFails | BlockingFails | ConnectFails

  /** A new channel, the state after initiating a connection on it, and whether an IOException was thrown to the caller. */
  datatype Initiated = Initiated(state: Selector, channel: ChannelId, thrown: bool)

  /**
   * initiateConnection: open a channel and queue one REGISTER request for
   * it with OP_CONNECT interest, carrying the target's IP and socket address.
   * An IOException from open, configureBlocking or connect reaches the
   * caller before anything is queued; a failed connect closes the channel.
   * connect's result is ignored: a connect that completes at once is still
   * registered for OP_CONNECT.
   */
  function InitiateConnection(s: Selector, target: SocketAddress, opening: Opening): (r: Initiated)
    ensures r.thrown <==> opening != ConnectPending && opening != ConnectedAtOnce
    ensures r.channel == s.nextChannel
    ensures !r.thrown ==>
              && r.state.pendingChanges ==
                   s.pendingChanges + [New(r.channel, RegisterCode, OpConnect, target.ip, Some(target))]
              && r.state.nextChannel > r.channel
              && r.state.connected == (if opening == ConnectedAtOnce then s.connected + {r.channel} else s.connected)
              && r.state == s.(pendingChanges := r.state.pendingChanges, nextChannel := r.state.nextChannel,
                               connected := r.state.connected)
    ensures opening == OpenFails ==> r.state == s
    ensures opening == BlockingFails ==> r.state == s.(nextChannel := r.state.nextChannel) && r.state.nextChannel > r.channel
    ensures opening == ConnectFails ==>
              && r.state == s.(nextChannel := r.state.nextChannel, closed := s.closed + {r.channel})
              && r.state.nextChannel > r.channel
  {
    var ch := s.nextChannel;
    match opening
    case OpenFails => Initiated(s, ch, true)
    case BlockingFails => Initiated(s.(nextChannel := ch + 1), ch, true)
    case ConnectFails => Initiated(s.(nextChannel := ch + 1, closed := s.closed + {ch}), ch, true)
    case _ =>
      var started := s.(nextChannel := ch + 1,
                       connected := if opening == ConnectedAtOnce then s.connected + {ch} else s.connected);
      Initiated(started.(pendingChanges := s.pendingChanges + [ChangeRequest(ch, RegisterCode, OpConnect, target.ip, Some(target))]),
                ch, false)
  }

  /** handleChangeRequest neither reads nor writes the queue, the next channel number or the connected channels. */
  lemma HandleChangeRequestFrame(s: Selector, req: ChangeRequest, pc: seq<ChangeRequest>, nc: ChannelId, cn: set<ChannelId>)
    ensures HandleChangeRequest(s.(pendingChanges := pc, nextChannel := nc, connected := cn), req)
            == match HandleChangeRequest(s, req)
               case Success(t) => Success(t.(pendingChanges := pc, nextChannel := nc, connected := cn))
               case Failure(e) => Failure(e)
  {
  }

  /** Applying changes neither reads nor writes the queue, the next channel number or the connected channels. */
  lemma {:induction false} ApplyChangesFrame(s: Selector, reqs: seq<ChangeRequest>, pc: seq<ChangeRequest>, nc: ChannelId, cn: set<ChannelId>)
    ensures ApplyChanges(s.(pendingChanges := pc, nextChannel := nc, connected := cn), reqs)
            == match ApplyChanges(s, reqs)
               case Success(t) => Success(t.(pendingChanges := pc, nextChannel := nc, connected := cn))
               case Failure(e) => Failure(e)
    decreases |reqs|
  {
    if reqs != [] {
      var s' := s.(pendingChanges := pc, nextChannel := nc, connected := cn);
      HandleChangeRequestFrame(s, reqs[0], pc, nc, cn);
      match HandleChangeRequest(s, reqs[0])
      case Failure(_) =>
      case Success(t) =>
        assert t.(pendingChanges := pc, nextChannel := nc, connected := cn) == HandleChangeRequest(s', reqs[0]).value;
        ApplyChangesFrame(t, reqs[1..], pc, nc, cn);
    }
  }

  /**
   * Once the reactor drains its changes, a connection it initiated without
   * an exception is registered for OP_CONNECT with a Connection to the
   * target attached and an output queue for the target's IP, on top of
   * whatever the requests queued before it registered.
   */
  lemma InitiateThenApply(s: Selector, target: SocketAddress, opening: Opening)
    requires ApplyChanges(s, s.pendingChanges).Success?
    requires s.nextChannel !in ApplyChanges(s, s.pendingChanges).value.keys && s.nextChannel !in s.closed
    ensures var i := InitiateConnection(s, target, opening);
            var p := ApplyChanges(s, s.pendingChanges).value;
            var t := ApplyChanges(i.state, i.state.pendingChanges);
            !i.thrown ==>
              && t.Success?
              && t.value.keys == p.keys[i.channel := Registration(OpConnect, true, Some(Connection(target, i.channel)))]
              && target.ip in t.value.pendingData
  {
    var i := InitiateConnection(s, target, opening);
    if !i.thrown {
      var before := s.pendingChanges;
      var req := ChangeRequest(i.channel, RegisterCode, OpConnect, target.ip, Some(target));
      assert i.state.pendingChanges == before + [req];
      assert i.state == s.(pendingChanges := before + [req], nextChannel := s.nextChannel + 1, connected := i.state.connected);
      ApplyChangesAppend(i.state, before, [req]);
      ApplyChangesFrame(s, before, before + [req], s.nextChannel + 1, i.state.connected);
      var p := ApplyChanges(s, before).value;
      var p' := p.(pendingChanges := before + [req], nextChannel := s.nextChannel + 1, connected := i.state.connected);
      assert ApplyChanges(i.state, before) == Success(p');
      RegisterConnect(p', i.channel, target);
    }
  }

  /** Applying one REGISTER for OP_CONNECT on a new, open channel registers it with a Connection to the target. */
  lemma RegisterConnect(p: Selector, ch: ChannelId, target: SocketAddress)
    requires ch !in p.keys && ch !in p.closed
    ensures var t := ApplyChanges(p, [ChangeRequest(ch, RegisterCode, OpConnect, target.ip, Some(target))]);
            && t.Success?
            && t.value.keys == p.keys[ch := Registration(OpConnect, true, Some(Connection(target, ch)))]
            && target.ip in t.value.pendingData
  {
    var req := ChangeRequest(ch, RegisterCode, OpConnect, target.ip, Some(target));
    assert Registers(p, req);
    assert RequestedAddress(req, p.serverPort) == target;
    assert ApplyChanges(p, [req]) == HandleChangeRequest(p, req);
  }

  /** The key handed to java.util.Map.get(Object): an InetAddress or an InetSocketAddress. */
  datatype LookupKey = ByInetAddress(ip: InetAddress) | BySocketAddress(address: SocketAddress)

  /**
   * Map.get on the pending-data map, whose keys are InetAddress objects: an
   * InetSocketAddress is never equal to an InetAddress, so looking one up
   * finds nothing.
   */
  function GetQueue(m: map<InetAddress, seq<Buffer>>, k: LookupKey): (r: Option<seq<Buffer>>)
    ensures k.BySocketAddress? ==> r == None
    ensures k.ByInetAddress? ==> (r.Some? <==> k.ip in m) && (r.Some? ==> r.value == m[k.ip])
  {
    match k
    case ByInetAddress(ip) => if ip in m then Some(m[ip]) else None
    case BySocketAddress(_) => None
  }

  /**
   * sendMessage as written: the queue is looked up under the Connection's
   * socket address, which never matches, so a new queue holding only `data`
   * replaces whatever was queued under the peer's IP.
   */
  function SendMessageAsWritten(s: Selector, con: Connection, data: Buffer): (r: Selector)
    ensures r.pendingData == s.pendingData[con.address.ip := [data]]
    ensures r == s.(pendingData := r.pendingData)
  {
    var queue := GetQueue(s.pendingData, BySocketAddress(con.address)).GetOr([]);
    assert queue + [data] == [data];
    s.(pendingData := s.pendingData[con.address.ip := queue + [data]])
  }

  /** sendMessage looking its queue up under the peer's IP: `data` joins the back of the existing queue. */
  function SendMessage(s: Selector, con: Connection, data: Buffer): (r: Selector)
    ensures var ip := con.address.ip;
            var before := if ip in s.pendingData then s.pendingData[ip] else [];
            && ip in r.pendingData
            && r.pendingData[ip] == before + [data]
            && Flatten(r.pendingData[ip]) == Flatten(before) + data
    ensures forall a | a in s.pendingData && a != con.address.ip :: a in r.pendingData && r.pendingData[a] == s.pendingData[a]
    ensures r == s.(pendingData := r.pendingData)
    ensures Consistent(s) ==> Consistent(r)
  {
    var ip := con.address.ip;
    var queue := GetQueue(s.pendingData, ByInetAddress(ip)).GetOr([]);
    FlattenAppend(queue, data);
    s.(pendingData := s.pendingData[ip := queue + [data]])
  }

  lemma {:induction false} FlattenAppend(q: seq<Buffer>, b: Buffer)
    ensures Flatten(q + [b]) == Flatten(q) + b
    decreases |q|
  {
    if q == [] {
      assert [] + [b] == [b];
    } else {
      assert (q + [b])[0] == q[0];
      assert (q + [b])[1..] == q[1..] + [b];
      FlattenAppend(q[1..], b);
    }
  }

  /**
   * The discrepancy: with a buffer already queued for the peer, sendMessage
   * as written discards it, where the corrected one keeps it ahead of the new data.
   */
  lemma SendMessageAsWrittenDropsQueued(s: Selector, con: Connection, data: Buffer)
    requires con.address.ip in s.pendingData && s.pendingData[con.address.ip] != []
    ensures SendMessageAsWritten(s, con, data).pendingData[con.address.ip]
            != SendMessage(s, con, data).pendingData[con.address.ip]
  {
    assert |SendMessage(s, con, data).pendingData[con.address.ip]| >= 2;
  }
}

=== FILE: coordinator.dfy ===
/**
 * The communication handler: the coordinator that owns the TCP client, TCP
 * server and UDP reactors, decides when a peer has joined, broadcasts
 * removals, picks the main selector and dispatches its mailbox messages.
 * Each reactor is seen through the set of peer addresses it holds a client
 * for, and every removal the coordinator asks of a reactor is logged.
 */
module Coordinator {
  import opened Net
  import Lifecycle

  datatype SelectorId = TcpClient | TcpServer | Udp

  /** The integer values of the TCP client and UDP selector flags. */
  datatype SelectorFlags = SelectorFlags(tcpClient: int, udp: int)

  /** The selection a NETWORK_SELECTER_DEFAULT message without a "selector" entry stands for. */
  const DefaultSelection: int := 2

  /** A removeClient call made on one reactor. */
  datatype Removal = Removal(selector: SelectorId, address: InetAddress)

  /** Mailbox messages, with the payload entry each one is read with. */
  datatype Incoming =
    | SelectorDefault(selector: Option<int>)
    | NewClient(ip: string)
    | ClientFailed(ip: string)
    | ClientLeft(ip: string)
    | Unhandled(what: int)

  datatype Handler = Handler(
    flags: Lifecycle.Flags,
    selectorFlags: SelectorFlags,
    tcpClient: set<InetAddress>,           // peers the TCP client reactor holds
    tcpServer: set<InetAddress>,           // peers the TCP server reactor holds
    udp: set<InetAddress>,                 // peers the UDP reactor holds
    removals: seq<Removal>,
    packetClients: seq<InetAddress>,       // addClient calls made on the packet handler
    mainSelector: Option<SelectorId>,
    selectorInUse: int,
    outbox: seq<Notice>)

  /** A peer has joined when both TCP directions to it exist. */
  predicate Joined(c: Handler, a: InetAddress)
  {
    a in c.tcpClient && a in c.tcpServer
  }

  /** removeClient: ask the TCP client, the TCP server and the UDP reactor, in that order, to drop `a`. */
  function RemoveClient(c: Handler, a: InetAddress): (r: Handler)
    ensures r.removals == c.removals + [Removal(TcpClient, a), Removal(TcpServer, a), Removal(Udp, a)]
    ensures r.tcpClient == c.tcpClient - {a} && r.tcpServer == c.tcpServer - {a} && r.udp == c.udp - {a}
    ensures !Joined(r, a)
    ensures r == c.(tcpClient := r.tcpClient, tcpServer := r.tcpServer, udp := r.udp, removals := r.removals)
  {
    c.(tcpClient := c.tcpClient - {a},
       tcpServer := c.tcpServer - {a},
       udp := c.udp - {a},
       removals := c.removals + [Removal(TcpClient, a), Removal(TcpServer, a), Removal(Udp, a)])
  }

  /**
   * clientJoin on an address: when both TCP reactors hold the peer, register
   * it with the packet handler and tell the owner CLIENT_CONNECTED;
   * otherwise do nothing. Nothing remembers an earlier join.
   */
  function ClientJoin(c: Handler, a: InetAddress): (r: Handler)
    ensures Joined(c, a) ==>
              r == c.(packetClients := c.packetClients + [a],
                      outbox := c.outbox + [ClientConnected(HostAddress(a))])
    ensures !Joined(c, a) ==> r == c
  {
    if a in c.tcpClient && a in c.tcpServer then
      c.(packetClients := c.packetClients + [a], outbox := c.outbox + [ClientConnected(HostAddress(a))])
    else c
  }

  /** clientJoin on an IP string: an IP that does not parse is only logged. */
  function ClientJoinIp(c: Handler, ip: string, parse: string -> Option<InetAddress>): (r: Handler)
    ensures parse(ip).None? ==> r == c
    ensures parse(ip).Some? ==> r == ClientJoin(c, parse(ip).value)
  {
    match parse(ip)
    case Some(a) => ClientJoin(c, a)
    case None => c
  }

  /** clientDisconnect on an address: remove it everywhere, then tell the owner CLIENT_DISCONNECTED. */
  function ClientDisconnect(c: Handler, a: InetAddress): (r: Handler)
    ensures r.outbox == c.outbox + [ClientDisconnected(HostAddress(a))]
    ensures r == RemoveClient(c, a).(outbox := r.outbox)
    ensures !Joined(r, a)
  {
    RemoveClient(c, a).(outbox := c.outbox + [ClientDisconnected(HostAddress(a))])
  }

  /** clientDisconnect on an IP string: an IP that does not parse is only logged. */
  function ClientDisconnectIp(c: Handler, ip: string, parse: string -> Option<InetAddress>): (r: Handler)
    ensures parse(ip).None? ==> r == c
    ensures parse(ip).Some? ==> r == ClientDisconnect(c, parse(ip).value)
  {
    match parse(ip)
    case Some(a) => ClientDisconnect(c, a)
    case None => c
  }

  /** clientError on an address: remove it everywhere, then tell the owner CLIENT_ERROR. */
  function ClientError(c: Handler, a: InetAddress): (r: Handler)
    ensures r.outbox == c.outbox + [Notice.ClientError(HostAddress(a))]
    ensures r == RemoveClient(c, a).(outbox := r.outbox)
    ensures !Joined(r, a)
  {
    RemoveClient(c, a).(outbox := c.outbox + [Notice.ClientError(HostAddress(a))])
  }

  /** clientError on an IP string: an IP that does not parse is only logged. */
  function ClientErrorIp(c: Handler, ip: string, parse: string -> Option<InetAddress>): (r: Handler)
    ensures parse(ip).None? ==> r == c
    ensures parse(ip).Some? ==> r == ClientError(c, parse(ip).value)
  {
    match parse(ip)
    case Some(a) => ClientError(c, a)
    case None => c
  }

  /**
   * setMainSelector: remember the raw selection; the UDP flag selects the
   * UDP reactor, the TCP client flag and every other value the TCP client.
   */
  function SetMainSelector(c: Handler, selection: int): (r: Handler)
    ensures r.selectorInUse == selection
    ensures r.mainSelector == Some(Udp) <==>
              selection == c.selectorFlags.udp && selection != c.selectorFlags.tcpClient
    ensures r.mainSelector == Some(TcpClient) <==>
              !(selection == c.selectorFlags.udp && selection != c.selectorFlags.tcpClient)
    ensures r == c.(mainSelector := r.mainSelector, selectorInUse := selection)
  {
    var main :=
      if selection == c.selectorFlags.tcpClient then TcpClient
      else if selection == c.selectorFlags.udp then Udp
      else TcpClient;
    c.(selectorInUse := selection, mainSelector := Some(main))
  }

  /** A selection that is neither flag falls back to the TCP client reactor. */
  lemma UnknownSelectionFallsBack(c: Handler, selection: int)
    requires selection != c.selectorFlags.tcpClient && selection != c.selectorFlags.udp
    ensures SetMainSelector(c, selection).mainSelector == Some(TcpClient)
    ensures SetMainSelector(c, selection).selectorInUse == selection
  {
  }

  /**
   * handlePassedMessage: a selector message sets the main selector (default
   * 2), NEW_CLIENT_CONNECTED tries a join, CLIENT_DISCONNECTED disconnects;
   * CLIENT_ERROR and every other message change nothing.
   */
  function HandlePassedMessage(c: Handler, m: Incoming, parse: string -> Option<InetAddress>): (r: Handler)
    ensures m.SelectorDefault? ==> r == SetMainSelector(c, m.selector.GetOr(DefaultSelection))
    ensures m.NewClient? ==> r == ClientJoinIp(c, m.ip, parse)
    ensures m.ClientLeft? ==> r == ClientDisconnectIp(c, m.ip, parse)
    ensures m.ClientFailed? || m.Unhandled? ==> r == c
  {
    match m
    case SelectorDefault(selector) => SetMainSelector(c, selector.GetOr(DefaultSelection))
    case NewClient(ip) => ClientJoinIp(c, ip, parse)
    case ClientFailed(_) => c
    case ClientLeft(ip) => ClientDisconnectIp(c, ip, parse)
    case Unhandled(_) => c
  }

  /** The coordinator after a terminate call, and what the call did to its thread. */
  datatype Terminated = Terminated(state: Handler, effects: seq<Lifecycle.Effect>)

  /** The coordinator's terminate: on its first call it interrupts its thread; it does not quit a looper. */
  function Terminate(c: Handler): (r: Terminated)
    ensures Lifecycle.IsTerminated(r.state.flags)
    ensures !Lifecycle.IsTerminated(c.flags) ==>
              !Lifecycle.IsRunning(r.state.flags) && r.effects == [Lifecycle.Interrupt]
    ensures Lifecycle.IsTerminated(c.flags) ==> r == Terminated(c, [])
    ensures r.state == c.(flags := r.state.flags)
  {
    var st := Lifecycle.TerminateWith(c.flags, [Lifecycle.Interrupt]);
    Terminated(c.(flags := st.flags), st.effects)
  }

  /** `n` copies of `x`. */
  function Copies<T>(x: T, n: nat): (s: seq<T>)
    ensures |s| == n
    ensures forall i | 0 <= i < n :: s[i] == x
  {
    if n == 0 then [] else Copies(x, n - 1) + [x]
  }

  /** `n` join attempts for the same address. */
  function JoinTimes(c: Handler, a: InetAddress, n: nat): Handler
  {
    if n == 0 then c else ClientJoin(JoinTimes(c, a, n - 1), a)
  }

  /** While both reactors hold the peer, every join attempt registers it again and announces it again. */
  lemma {:induction false} RepeatedJoinAnnouncesEachTime(c: Handler, a: InetAddress, n: nat)
    requires Joined(c, a)
    ensures JoinTimes(c, a, n).outbox == c.outbox + Copies(ClientConnected(HostAddress(a)), n)
    ensures JoinTimes(c, a, n).packetClients == c.packetClients + Copies(a, n)
    ensures Joined(JoinTimes(c, a, n), a)
  {
    if n > 0 {
      RepeatedJoinAnnouncesEachTime(c, a, n - 1);
      assert c.outbox + Copies(ClientConnected(HostAddress(a)), n - 1) + [ClientConnected(HostAddress(a))]
          == c.outbox + Copies(ClientConnected(HostAddress(a)), n);
      assert c.packetClients + Copies(a, n - 1) + [a] == c.packetClients + Copies(a, n);
    }
  }

  /**
   * Whichever TCP direction comes up first, its NEW_CLIENT_CONNECTED report
   * announces nothing; once the other reactor also holds the peer, the next
   * report announces it exactly once.
   */
  lemma JoinNeedsBothDirections(c: Handler, a: InetAddress, parse: string -> Option<InetAddress>)
    requires parse(HostAddress(a)) == Some(a)
    requires (a in c.tcpClient) != (a in c.tcpServer)
    ensures var first := HandlePassedMessage(c, NewClient(HostAddress(a)), parse);
            var both := first.(tcpClient := first.tcpClient + {a}, tcpServer := first.tcpServer + {a});
            var second := HandlePassedMessage(both, NewClient(HostAddress(a)), parse);
            && first == c
            && second.outbox == c.outbox + [ClientConnected(HostAddress(a))]
            && second.packetClients == c.packetClients + [a]
  {
  }

  /** After a disconnect or an error the peer is no longer joined and a join attempt announces nothing. */
  lemma LeavingEndsJoin(c: Handler, a: InetAddress)
    ensures ClientJoin(ClientDisconnect(c, a), a) == ClientDisconnect(c, a)
    ensures ClientJoin(ClientError(c, a), a) == ClientError(c, a)
  {
  }
}

=== FILE: lifecycle.dfy ===
/**
 * The flags every communication thread carries (running, terminated,
 * ignore-incoming) and the exactly-once terminate transition.
 */
module Lifecycle {
  import opened Net

  datatype Flags = Flags(running: bool, terminated: bool, ignoring: bool)

  /**
   * What a terminate call does to the thread machinery besides the flags.
   * `NoLooper` is the NullPointerException thrown back to a caller whose
   * thread has no looper to quit.
   */
  datatype Effect = QuitLooper | Interrupt | NoLooper

  datatype Step = Step(flags: Flags, effects: seq<Effect>)

  /** The flags of a freshly constructed thread. */
  function Initial(): (f: Flags)
    ensures !f.running && !f.terminated && f.ignoring
  {
    Flags(false, false, true)
  }

  predicate IsRunning(f: Flags)
  {
    f.running
  }

  predicate IsTerminated(f: Flags)
  {
    f.terminated
  }

  predicate IsIgnoring(f: Flags)
  {
    f.ignoring
  }

  /** A thread's run loop raises the running flag and touches nothing else. */
  function Start(f: Flags): (g: Flags)
    ensures IsRunning(g)
    ensures IsTerminated(g) == IsTerminated(f) && IsIgnoring(g) == IsIgnoring(f)
  {
    f.(running := true)
  }

  /**
   * A compare-and-set on the terminated flag: only the call that flips it
   * lowers the running flag and performs `effects`.
   */
  function TerminateWith(f: Flags, effects: seq<Effect>): (st: Step)
    ensures IsTerminated(st.flags) && IsIgnoring(st.flags) == IsIgnoring(f)
    ensures !IsTerminated(f) ==> !IsRunning(st.flags) && st.effects == effects
    ensures IsTerminated(f) ==> st.flags == f && st.effects == []
  {
    if f.terminated then Step(f, [])
    else Step(f.(running := false, terminated := true), effects)
  }

  /**
   * The base thread's terminate, called on a thread that has a looper or
   * not: on its first call it quits the caller's looper and interrupts the
   * thread. With no looper the flags are already set when the looper lookup
   * throws, and the interrupt is skipped.
   */
  function Terminate(f: Flags, hasLooper: bool): (st: Step)
    ensures IsTerminated(st.flags) && IsIgnoring(st.flags) == IsIgnoring(f)
    ensures !IsTerminated(f) && hasLooper ==> !IsRunning(st.flags) && st.effects == [QuitLooper, Interrupt]
    ensures !IsTerminated(f) && !hasLooper ==> !IsRunning(st.flags) && st.effects == [NoLooper]
    ensures IsTerminated(f) ==> st == Step(f, [])
  {
    TerminateWith(f, if hasLooper then [QuitLooper, Interrupt] else [NoLooper])
  }

  /** A second terminate changes nothing and does nothing, whether or not the first one threw. */
  lemma TerminateIdempotent(f: Flags, first: bool, second: bool)
    ensures Terminate(Terminate(f, first).flags, second) == Step(Terminate(f, first).flags, [])
  {
  }

  /** `n` terminate calls in a row, with the effects of all of them in order. */
  function TerminateTimes(f: Flags, effects: seq<Effect>, n: nat): Step
    decreases n
  {
    if n == 0 then Step(f, [])
    else
      var first := TerminateWith(f, effects);
      var rest := TerminateTimes(first.flags, effects, n - 1);
      Step(rest.flags, first.effects + rest.effects)
  }

  /** However many times terminate is called, its effects happen once, on the first call. */
  lemma {:induction false} TerminateTakesEffectOnce(f: Flags, effects: seq<Effect>, n: nat)
    requires n > 0
    ensures TerminateTimes(f, effects, n).flags == TerminateWith(f, effects).flags
    ensures TerminateTimes(f, effects, n).effects == (if IsTerminated(f) then [] else effects)
    decreases n
  {
    var first := TerminateWith(f, effects);
    if n > 1 {
      TerminateTakesEffectOnce(first.flags, effects, n - 1);
    }
  }

  /** setIgnoreIncoming stores its argument in the ignore flag only. */
  function SetIgnoreIncoming(f: Flags, ignore: bool): (g: Flags)
    ensures IsIgnoring(g) == ignore
    ensures IsRunning(g) == IsRunning(f) && IsTerminated(g) == IsTerminated(f)
  {
    f.(ignoring := ignore)
  }

  /** The base thread ignores passed messages. */
  function HandlePassedMessage<M>(f: Flags, message: M): (g: Flags)
    ensures g == f
  {
    f
  }

  /** The base thread ignores error messages. */
  function HandleErrorMessage<M>(f: Flags, from: InetAddress, message: M): (g: Flags)
    ensures g == f
  {
    f
  }
}

=== FILE: net.dfy ===
/**
 * Values shared by every part of the transport model: optional values and
 * failures, network addresses, byte buffers, the SelectionKey interest bits
 * and the notifications that reactor threads and the coordinator post to the
 * mailbox of the thread that owns them.
 */
module Net {

  datatype Option<+T> = None | Some(value: T) {
    /** The carried value, or `default` when there is none. */
    function GetOr(default: T): T {
      match this
      case Some(v) => v
      case None => default
    }
  }

  datatype Result<+T, +E> = Success(value: T) | Failure(error: E)

  datatype Outcome<+E> = Pass | Fail(error: E)

  newtype byte = x: int | 0 <= x < 256

  /** The bytes of a ByteBuffer between its position and its limit. */
  type Buffer = seq<byte>

  /** Identity of one SocketChannel object. */
  type ChannelId = nat

  /** An IP address (java.net.InetAddress), identified by its textual form. */
  datatype InetAddress = InetAddress(host: string)

  /** An IP address plus a port (java.net.InetSocketAddress). */
  datatype SocketAddress = SocketAddress(ip: InetAddress, port: int)

  /** InetAddress.getHostAddress: the text carried in an "ip" payload. */
  function HostAddress(a: InetAddress): string
  {
    a.host
  }

  /** Interest and readiness bits of java.nio.channels.SelectionKey. */
  const OpRead: int := 1
  const OpWrite: int := 4
  const OpConnect: int := 8

  /** Messages posted to the owning thread, with their "ip" payload. */
  datatype Notice =
    | SelectorStarted
    | NewClientConnected(ip: string)
    | ClientConnected(ip: string)
    | ClientDisconnected(ip: string)
    | ClientError(ip: string)
}

=== FILE: output_queue.dfy ===
/**
 * A peer's pending output: an ordered queue of byte buffers drained into a
 * non-blocking socket that accepts, on each write call, any number of bytes
 * up to what the head buffer still holds.
 */
module OutputQueue {
  import opened Net

  /** All bytes still queued, in send order. */
  function Flatten(q: seq<Buffer>): seq<byte>
  {
    if q == [] then [] else q[0] + Flatten(q[1..])
  }

  /** What one SocketChannel.write call does: take up to `n` bytes, or throw an IOException. */
  datatype WriteResult = Took(n: nat) | Broken

  /** The socket's answer to the next write call; once the script is exhausted it takes nothing. */
  function NextWrite(socket: seq<WriteResult>): WriteResult
  {
    if socket == [] then Took(0) else socket[0]
  }

  function LaterWrites(socket: seq<WriteResult>): seq<WriteResult>
  {
    if socket == [] then [] else socket[1..]
  }

  /** The queue left behind, the bytes the socket took, and whether a write threw. */
  datatype Drained = Drained(queue: seq<Buffer>, sent: seq<byte>, failed: bool)

  /**
   * `r` is what is left of `q` after whole buffers were taken from its front
   * and the new head lost a prefix: the remaining buffers are the last
   * buffers of `q`, in their original order, and the head is a suffix of the
   * buffer it came from.
   */
  predicate Remainder(q: seq<Buffer>, r: seq<Buffer>)
  {
    && |r| <= |q|
    && (r != [] ==>
          var h := q[|q| - |r|];
          && r[1..] == q[|q| - |r| + 1..]
          && |r[0]| <= |h|
          && r[0] == h[|h| - |r[0]|..])
  }

  /**
   * The write loop: while the queue is not empty, write its head; a head the
   * socket took completely is removed, a head with bytes left ends the loop
   * and stays at the front.
   */
  function Drain(q: seq<Buffer>, socket: seq<WriteResult>): (d: Drained)
    ensures DrainedFrom(q, d)
    decreases |q|
  {
    if q == [] then Drained([], [], false)
    else
      match NextWrite(socket)
      case Broken =>
        BrokenHead(q);
        Drained(q, [], true)
      case Took(n) =>
        if n < |q[0]| then
          PartialHead(q, n);
          Drained([q[0][n..]] + q[1..], q[0][..n], false)
        else
          var rest := Drain(q[1..], LaterWrites(socket));
          WholeHeadDrained(q, rest);
          Drained(rest.queue, q[0] + rest.sent, rest.failed)
  }

  /**
   * What a drain of `q` that ended in `d` promises: the bytes sent followed
   * by the bytes still queued are the bytes queued before; what is left is
   * a remainder of `q`; after a write threw, the buffers left are untouched;
   * otherwise a buffer left at the head still holds bytes.
   */
  predicate DrainedFrom(q: seq<Buffer>, d: Drained)
  {
    && d.sent + Flatten(d.queue) == Flatten(q)
    && Remainder(q, d.queue)
    && (d.failed ==> d.queue != [] && d.queue == q[|q| - |d.queue|..])
    && (!d.failed && d.queue != [] ==> |d.queue[0]| > 0)
  }

  /** A write that throws on the head buffer leaves the whole queue in place. */
  lemma BrokenHead(q: seq<Buffer>)
    requires q != []
    ensures DrainedFrom(q, Drained(q, [], true))
  {
    assert q[0][|q[0]| - |q[0]|..] == q[0];
    assert q[|q| - |q| + 1..] == q[1..];
    assert q[|q| - |q|..] == q;
  }

  /** A head buffer the socket took only `n` bytes of stays at the front, minus those bytes. */
  lemma PartialHead(q: seq<Buffer>, n: nat)
    requires q != [] && n < |q[0]|
    ensures DrainedFrom(q, Drained([q[0][n..]] + q[1..], q[0][..n], false))
  {
    var h := q[0];
    var r := [h[n..]] + q[1..];
    assert r[0] == h[n..] && r[1..] == q[1..];
    calc {
      h[..n] + Flatten(r);
      h[..n] + (h[n..] + Flatten(q[1..]));
      (h[..n] + h[n..]) + Flatten(q[1..]);
      { assert h[..n] + h[n..] == h; }
      Flatten(q);
    }
    assert |r| == |q| && q[|q| - |r|] == h;
    assert h[|h| - |r[0]|..] == h[n..];
  }

  /** A head buffer sent whole, followed by the drain of the rest, accounts for the whole queue. */
  lemma WholeHead(q: seq<Buffer>, left: seq<Buffer>, sent: seq<byte>)
    requires q != []
    requires sent + Flatten(left) == Flatten(q[1..])
    ensures q[0] + sent + Flatten(left) == Flatten(q)
  {
    assert Flatten(q) == q[0] + Flatten(q[1..]);
    assert q[0] + sent + Flatten(left) == q[0] + (sent + Flatten(left));
  }

  /** A head buffer sent whole, followed by a drain of the rest, is a drain of the whole queue. */
  lemma WholeHeadDrained(q: seq<Buffer>, rest: Drained)
    requires q != [] && DrainedFrom(q[1..], rest)
    ensures DrainedFrom(q, Drained(rest.queue, q[0] + rest.sent, rest.failed))
  {
    WholeHead(q, rest.queue, rest.sent);
    RemainderShift(q, rest.queue);
  }

  /** What is left of the tail of a queue is also what is left of the queue. */
  lemma RemainderShift(q: seq<Buffer>, left: seq<Buffer>)
    requires q != []
    requires Remainder(q[1..], left)
    ensures Remainder(q, left)
    ensures q[1..][|q[1..]| - |left|..] == q[|q| - |left|..]
  {
    var t := q[1..];
    var k := |left|;
    assert t[|t| - k..] == q[|q| - k..];
    if left != [] {
      assert t[|t| - k] == q[|q| - k];
      assert t[|t| - k + 1..] == q[|q| - k + 1..];
    }
  }

  /** The socket's answer to the i-th write call of a drain; past the script it takes nothing. */
  function Answer(socket: seq<WriteResult>, i: nat): WriteResult
  {
    if i < |socket| then socket[i] else Took(0)
  }

  lemma AnswerShift(socket: seq<WriteResult>, i: nat)
    ensures NextWrite(socket) == Answer(socket, 0)
    ensures Answer(LaterWrites(socket), i) == Answer(socket, i + 1)
  {
  }

  /** Every buffer the drain removed was taken whole by the write call made on it. */
  lemma {:induction false} DrainRemovesOnlyWholeWrites(q: seq<Buffer>, socket: seq<WriteResult>)
    ensures var d := Drain(q, socket);
            forall i | 0 <= i < |q| - |d.queue| :: Answer(socket, i).Took? && Answer(socket, i).n >= |q[i]|
    decreases |q|
  {
    if q != [] {
      AnswerShift(socket, 0);
      var first := NextWrite(socket);
      if first.Took? && first.n >= |q[0]| {
        var rest := Drain(q[1..], LaterWrites(socket));
        assert Drain(q, socket).queue == rest.queue;
        DrainRemovesOnlyWholeWrites(q[1..], LaterWrites(socket));
        WholeWritesShift(q, socket, |q[1..]| - |rest.queue|);
      } else {
        assert |Drain(q, socket).queue| == |q|;
      }
    }
  }

  /** Whole writes on the tail of a queue, after a whole write on its head, are whole writes on the queue. */
  lemma WholeWritesShift(q: seq<Buffer>, socket: seq<WriteResult>, m: nat)
    requires q != [] && m < |q|
    requires Answer(socket, 0).Took? && Answer(socket, 0).n >= |q[0]|
    requires forall i | 0 <= i < m :: Answer(LaterWrites(socket), i).Took? && Answer(LaterWrites(socket), i).n >= |q[1..][i]|
    ensures forall i | 0 <= i < m + 1 :: Answer(socket, i).Took? && Answer(socket, i).n >= |q[i]|
  {
    forall i | 0 < i < m + 1
      ensures Answer(socket, i).Took? && Answer(socket, i).n >= |q[i]|
    {
      AnswerShift(socket, i - 1);
      assert q[i] == q[1..][i - 1];
    }
  }

  /**
   * The write call on the first buffer left behind decides why the drain
   * stopped: it threw, or it took fewer bytes than the buffer held and the
   * buffer stays at the head without exactly those bytes.
   */
  lemma {:induction false} DrainStopsAtShortWrite(q: seq<Buffer>, socket: seq<WriteResult>)
    ensures var d := Drain(q, socket);
            var m := |q| - |d.queue|;
            m < |q| ==>
              && (Answer(socket, m).Broken? <==> d.failed)
              && (Answer(socket, m).Took? ==>
                    && Answer(socket, m).n < |q[m]|
                    && d.queue[0] == q[m][Answer(socket, m).n..])
    decreases |q|
  {
    if q != [] {
      AnswerShift(socket, 0);
      match NextWrite(socket)
      case Broken =>
        assert Drain(q, socket) == Drained(q, [], true);
      case Took(n) =>
        if n >= |q[0]| {
          var rest := Drain(q[1..], LaterWrites(socket));
          assert Drain(q, socket) == Drained(rest.queue, q[0] + rest.sent, rest.failed);
          DrainStopsAtShortWrite(q[1..], LaterWrites(socket));
          var m' := |q[1..]| - |rest.queue|;
          if m' < |q[1..]| {
            AnswerShift(socket, m');
            assert q[1..][m'] == q[m' + 1];
          }
        } else {
          assert Drain(q, socket) == Drained([q[0][n..]] + q[1..], q[0][..n], false);
        }
    }
  }

  /** A socket that takes every head buffer whole empties the queue and sends every byte. */
  lemma {:induction false} DrainRoomySocket(q: seq<Buffer>, socket: seq<WriteResult>)
    requires |socket| >= |q|
    requires forall i | 0 <= i < |q| :: socket[i].Took? && socket[i].n >= |q[i]|
    ensures Drain(q, socket) == Drained([], Flatten(q), false)
    decreases |q|
  {
    if q != [] {
      assert NextWrite(socket) == socket[0];
      DrainRoomySocket(q[1..], LaterWrites(socket));
    }
  }

  /** Draining twice continues where the first drain stopped: together they send a prefix of the queue's bytes. */
  lemma DrainResumes(q: seq<Buffer>, first: seq<WriteResult>, second: seq<WriteResult>)
    ensures var d1 := Drain(q, first);
            var d2 := Drain(d1.queue, second);
            d1.sent + d2.sent + Flatten(d2.queue) == Flatten(q)
  {
  }
}

=== FILE: selector_loop.dfy ===
/**
 * One iteration of the client reactor's run loop: drain and apply the
 * pending change requests, then hand every selected key to exactly one
 * handler.
 */
module SelectorLoop {
  import opened Net
  import opened OutputQueue
  import opened ClientSelector

  /** A selected key as the loop sees it: its channel and ready operations. */
  datatype ReadyKey = ReadyKey(channel: ChannelId, connectable: bool, readable: bool, writable: bool)

  datatype Handler = FinishConnect | ReadHandler | WriteHandler

  /** One handler run on one channel. */
  datatype Invocation = Invocation(channel: ChannelId, handler: Handler)

  /** The handler a valid key goes to: connectable before readable before writable. */
  function Dispatch(k: ReadyKey): (h: Option<Handler>)
    ensures h == Some(FinishConnect) <==> k.connectable
    ensures h == Some(ReadHandler) <==> !k.connectable && k.readable
    ensures h == Some(WriteHandler) <==> !k.connectable && !k.readable && k.writable
    ensures h == None <==> !k.connectable && !k.readable && !k.writable
  {
    if k.connectable then Some(FinishConnect)
    else if k.readable then Some(ReadHandler)
    else if k.writable then Some(WriteHandler)
    else None
  }

  /** Whether the loop hands `k` to a handler: its key is still valid and something is ready. */
  predicate Handles(keys: map<ChannelId, Registration>, k: ReadyKey)
  {
    k.channel in keys && keys[k.channel].valid && Dispatch(k).Some?
  }

  /** The handler run on a key, if the registrations `keys` let the loop hand it to one. */
  function Invoked(keys: map<ChannelId, Registration>, k: ReadyKey): (d: seq<Invocation>)
    ensures Handles(keys, k) ==> d == [Invocation(k.channel, Dispatch(k).value)]
    ensures !Handles(keys, k) ==> d == []
  {
    if Handles(keys, k) then [Invocation(k.channel, Dispatch(k).value)] else []
  }

  /** The handler runs a round over `selected` performs, in order. */
  function Dispatched(keys: map<ChannelId, Registration>, selected: seq<ReadyKey>): (d: seq<Invocation>)
    ensures |d| <= |selected|
    ensures forall j | 0 <= j < |d| :: d[j].channel in keys && keys[d[j].channel].valid
    decreases |selected|
  {
    if selected == [] then []
    else
      var k := selected[|selected| - 1];
      Dispatched(keys, selected[..|selected| - 1]) + Invoked(keys, k)
  }

  /** Dispatching two selections in a row dispatches the first, then the second. */
  lemma {:induction false} DispatchedAppend(keys: map<ChannelId, Registration>, a: seq<ReadyKey>, b: seq<ReadyKey>)
    ensures Dispatched(keys, a + b) == Dispatched(keys, a) + Dispatched(keys, b)
    decreases |b|
  {
    if b == [] {
      assert a + b == a;
    } else {
      var init := b[..|b| - 1];
      var k := b[|b| - 1];
      assert (a + b)[..|a + b| - 1] == a + init;
      assert (a + b)[|a + b| - 1] == k;
      DispatchedAppend(keys, a, init);
    }
  }

  /** A round in which every key is valid and ready runs one handler per key. */
  lemma {:induction false} DispatchedAll(keys: map<ChannelId, Registration>, selected: seq<ReadyKey>)
    requires forall i | 0 <= i < |selected| :: Handles(keys, selected[i])
    ensures |Dispatched(keys, selected)| == |selected|
    ensures forall i | 0 <= i < |selected| ::
              && Dispatched(keys, selected)[i].channel == selected[i].channel
              && Some(Dispatched(keys, selected)[i].handler) == Dispatch(selected[i])
    decreases |selected|
  {
    if selected != [] {
      DispatchedAll(keys, selected[..|selected| - 1]);
    }
  }

  /** What the network does during a round, per channel. */
  datatype Env = Env(
    connect: ChannelId -> ConnectOutcome,
    remote: ChannelId -> SocketAddress,
    socket: ChannelId -> seq<WriteResult>)

  /** Whether the write handler finds the key's Connection and that peer's queue. */
  predicate HasQueue(s: Selector, ch: ChannelId)
  {
    ch in s.keys && s.keys[ch].attachment.Some? && s.keys[ch].attachment.value.address.ip in s.pendingData
  }

  /**
   * The body of the key loop for one selected key: a key whose registration
   * is no longer valid, or that is ready for nothing, is skipped; any other
   * key goes to finishConnection, read or write by its priority. An
   * IOException is caught inside the loop: a write that throws keeps what it
   * already did, the buffers it removed stay removed and the interest stays
   * as it was. An exception of another kind escapes the loop: a
   * CancelledKeyException from finishConnection on a closed channel, or the
   * NullPointerException of a write on a key with no Connection or no queue.
   */
  function HandleKey(s: Selector, k: ReadyKey, env: Env): (r: Handled)
    ensures r.state.keys.Keys == s.keys.Keys
    ensures r.state.pendingChanges == s.pendingChanges
    ensures Consistent(s) ==> Consistent(r.state)
    ensures !Handles(s.keys, k) ==> r == Handled(s, false)
    ensures Consistent(s) && r.escaped ==>
              Handles(s.keys, k) && Dispatch(k) == Some(FinishConnect) && env.connect(k.channel) == ChannelClosed
    ensures Handles(s.keys, k) && Dispatch(k) == Some(WriteHandler) && !HasQueue(s, k.channel) ==> r == Handled(s, true)
    ensures Dispatch(k) != Some(FinishConnect) ==>
              && r.state.closed == s.closed
              && forall ch | ch in s.keys :: r.state.keys[ch].valid == s.keys[ch].valid
    ensures Dispatch(k) == Some(ReadHandler) && Handles(s.keys, k) ==>
              r == Handled(s.(calls := s.calls + [ReadFrom(k.channel)]), false)
  {
    if !Handles(s.keys, k) then Handled(s, false)
    else
      match Dispatch(k).value
      case FinishConnect => FinishConnection(s, k.channel, env.connect(k.channel), env.remote(k.channel))
      case ReadHandler => Handled(s.(calls := s.calls + [ReadFrom(k.channel)]), false)
      case WriteHandler =>
        if HasQueue(s, k.channel) then Handled(Write(s, k.channel, env.socket(k.channel)).state, false)
        else Handled(s, true)
  }

  /** The state after part of a round, the handlers it ran, and whether an exception escaped and ended it. */
  datatype Progress = Progress(state: Selector, ran: seq<Invocation>, escaped: bool)

  /**
   * Folding a per-key step over the selected keys in order, until a step
   * reports an escaped exception.
   */
  function Fold(s: Selector, selected: seq<ReadyKey>, step: (Selector, ReadyKey) -> Progress): Progress
    decreases |selected|
  {
    if selected == [] then Progress(s, [], false)
    else
      var p := Fold(s, selected[..|selected| - 1], step);
      if p.escaped then p
      else
        var h := step(p.state, selected[|selected| - 1]);
        Progress(h.state, p.ran + h.ran, h.escaped)
  }

  /** A fold takes its first step, then folds the rest from there, unless that step escaped. */
  lemma {:induction false} FoldFront(s: Selector, k: ReadyKey, rest: seq<ReadyKey>, step: (Selector, ReadyKey) -> Progress)
    ensures Fold(s, [k] + rest, step) ==
              var h := step(s, k);
              if h.escaped then h
              else
                var p := Fold(h.state, rest, step);
                Progress(p.state, h.ran + p.ran, p.escaped)
    decreases |rest|
  {
    var all := [k] + rest;
    var h := step(s, k);
    if rest == [] {
      assert all[..|all| - 1] == [];
      assert [] + h.ran == h.ran + [];
    } else {
      var init := rest[..|rest| - 1];
      var last := rest[|rest| - 1];
      assert all[..|all| - 1] == [k] + init;
      assert all[|all| - 1] == last;
      FoldFront(s, k, init, step);
      if !h.escaped {
        var p := Fold(h.state, init, step);
        if !p.escaped {
          var g := step(p.state, last);
          assert h.ran + p.ran + g.ran == h.ran + (p.ran + g.ran);
        }
      }
    }
  }

  /** Once a step has escaped, the rest of the fold does nothing. */
  lemma {:induction false} FoldStopsAtEscape(s: Selector, selected: seq<ReadyKey>, i: nat, step: (Selector, ReadyKey) -> Progress)
    requires i <= |selected| && Fold(s, selected[..i], step).escaped
    ensures Fold(s, selected, step) == Fold(s, selected[..i], step)
    decreases |selected| - i
  {
    if i < |selected| {
      var n := |selected|;
      assert selected[..n - 1][..i] == selected[..i];
      FoldStopsAtEscape(s, selected[..n - 1], i, step);
    } else {
      assert selected[..i] == selected;
    }
  }

  /** One key of a round: its handler, with the handler run it records. */
  function KeyStep(env: Env): (Selector, ReadyKey) -> Progress
  {
    (s: Selector, k: ReadyKey) =>
      var h := HandleKey(s, k, env);
      Progress(h.state, Invoked(s.keys, k), h.escaped)
  }

  /** The round's key set, queue and registration invariant survive every key. */
  lemma {:induction false} RoundKeeps(s: Selector, selected: seq<ReadyKey>, env: Env)
    ensures var p := Fold(s, selected, KeyStep(env));
            && p.state.keys.Keys == s.keys.Keys
            && p.state.pendingChanges == s.pendingChanges
            && (Consistent(s) ==> Consistent(p.state))
            && |p.ran| <= |selected|
    decreases |selected|
  {
    if selected != [] {
      RoundKeeps(s, selected[..|selected| - 1], env);
    }
  }

  /**
   * A round over `selected`: each key handled in order, from the state the
   * previous one left, until an exception escapes a handler.
   */
  function Round(s: Selector, selected: seq<ReadyKey>, env: Env): (p: Progress)
    ensures p.state.keys.Keys == s.keys.Keys
    ensures p.state.pendingChanges == s.pendingChanges
    ensures Consistent(s) ==> Consistent(p.state)
    ensures |p.ran| <= |selected|
  {
    RoundKeeps(s, selected, env);
    Fold(s, selected, KeyStep(env))
  }

  /**
   * A round handles its first key and then the rest from the state that key
   * left: a write that threw an IOException does not stop the keys after it,
   * and an exception that escapes ends the round there.
   */
  lemma RoundFront(s: Selector, k: ReadyKey, rest: seq<ReadyKey>, env: Env)
    ensures var h := HandleKey(s, k, env);
            Round(s, [k] + rest, env) ==
              if h.escaped then Progress(h.state, Invoked(s.keys, k), true)
              else
                var p := Round(h.state, rest, env);
                Progress(p.state, Invoked(s.keys, k) + p.ran, p.escaped)
  {
    FoldFront(s, k, rest, KeyStep(env));
  }

  /** A round over one more key: unless the round so far escaped, that key is handled from where it left off. */
  lemma RoundStep(s: Selector, selected: seq<ReadyKey>, i: nat, env: Env)
    requires i < |selected|
    ensures var p := Round(s, selected[..i], env);
            var h := HandleKey(p.state, selected[i], env);
            Round(s, selected[..i + 1], env) ==
              if p.escaped then p else Progress(h.state, p.ran + Invoked(p.state.keys, selected[i]), h.escaped)
  {
    assert selected[..i + 1][..i] == selected[..i];
    assert selected[..i + 1][i] == selected[i];
  }

  /** Once an exception has escaped, the keys after it are not handled in this round. */
  lemma RoundStopsAtEscape(s: Selector, selected: seq<ReadyKey>, i: nat, env: Env)
    requires i <= |selected| && Round(s, selected[..i], env).escaped
    ensures Round(s, selected, env) == Round(s, selected[..i], env)
  {
    FoldStopsAtEscape(s, selected, i, KeyStep(env));
  }

  /**
   * With no connectable key in a consistent reactor nothing escapes and no
   * key is cancelled, so the round runs exactly the handlers the dispatch of
   * the selection names.
   */
  lemma {:induction false} RoundWithoutConnects(s: Selector, selected: seq<ReadyKey>, env: Env)
    requires Consistent(s)
    requires forall i | 0 <= i < |selected| :: !selected[i].connectable
    ensures var p := Round(s, selected, env);
            && !p.escaped
            && p.ran == Dispatched(s.keys, selected)
            && forall ch | ch in s.keys :: p.state.keys[ch].valid == s.keys[ch].valid
    decreases |selected|
  {
    if selected != [] {
      var init := selected[..|selected| - 1];
      RoundWithoutConnects(s, init, env);
      var p := Round(s, init, env);
      var k := selected[|selected| - 1];
      assert Handles(p.state.keys, k) == Handles(s.keys, k);
    }
  }

  /** Skipped keys leave no trace: a round over only unhandled keys changes nothing. */
  lemma {:induction false} RoundSkipsUnhandled(s: Selector, selected: seq<ReadyKey>, env: Env)
    requires forall i | 0 <= i < |selected| :: !Handles(s.keys, selected[i])
    ensures Round(s, selected, env) == Progress(s, [], false)
    ensures Dispatched(s.keys, selected) == []
    decreases |selected|
  {
    if selected != [] {
      RoundSkipsUnhandled(s, selected[..|selected| - 1], env);
    }
  }

  /**
   * The change drain at the top of the run loop: apply the queued changes in
   * order and clear the queue. When a request throws, the rest are skipped and the queue is
   * left as it was; `applied` counts the requests applied before it.
   */
  method DrainPendingChanges(s: Selector) returns (r: Selector, applied: nat, aborted: bool)
    ensures aborted <==> ApplyChanges(s, s.pendingChanges).Failure?
    ensures !aborted ==> applied == |s.pendingChanges| &&
                         r == ApplyChanges(s, s.pendingChanges).value.(pendingChanges := [])
    ensures aborted ==> && applied < |s.pendingChanges|
                        && ApplyChanges(s, s.pendingChanges[..applied]) == Success(r)
                        && HandleChangeRequest(r, s.pendingChanges[applied]).Failure?
                        && r.pendingChanges == s.pendingChanges
    ensures Consistent(s) ==> Consistent(r)
  {
    var queue := s.pendingChanges;
    r := s;
    applied := 0;
    while applied < |queue|
      invariant 0 <= applied <= |queue|
      invariant ApplyChanges(s, queue[..applied]) == Success(r)
      invariant r.pendingChanges == queue
    {
      ApplyChangesAppend(s, queue[..applied], [queue[applied]]);
      assert queue[..applied] + [queue[applied]] == queue[..applied + 1];
      match HandleChangeRequest(r, queue[applied])
      case Failure(_) =>
        ApplyChangesAppend(s, queue[..applied], queue[applied..]);
        assert queue[..applied] + queue[applied..] == queue;
        assert queue[applied..][0] == queue[applied];
        aborted := true;
        return;
      case Success(t) =>
        r := t;
        applied := applied + 1;
    }
    assert queue[..applied] == queue;
    aborted := false;
    r := r.(pendingChanges := []);
  }

  /**
   * The key loop of the run loop: each selected key whose registration is
   * no longer valid is skipped; every other key goes to exactly one
   * handler. An IOException inside a handler is caught and the loop goes
   * on; any other exception leaves the loop.
   */
  method ProcessSelectedKeys(s: Selector, selected: seq<ReadyKey>, env: Env)
    returns (r: Selector, ran: seq<Invocation>, escaped: bool)
    ensures Progress(r, ran, escaped) == Round(s, selected, env)
    ensures Consistent(s) ==> Consistent(r)
    ensures r.keys.Keys == s.keys.Keys
    ensures r.pendingChanges == s.pendingChanges
  {
    r := s;
    ran := [];
    escaped := false;
    var i := 0;
    while i < |selected| && !escaped
      invariant 0 <= i <= |selected|
      invariant Round(s, selected[..i], env) == Progress(r, ran, escaped)
    {
      var k := selected[i];
      RoundStep(s, selected, i, env);
      if k.channel in r.keys && r.keys[k.channel].valid {
        match Dispatch(k)
        case Some(FinishConnect) =>
          var h := FinishConnection(r, k.channel, env.connect(k.channel), env.remote(k.channel));
          r, escaped := h.state, h.escaped;
          ran := ran + [Invocation(k.channel, FinishConnect)];
        case Some(ReadHandler) =>
          r := r.(calls := r.calls + [ReadFrom(k.channel)]);
          ran := ran + [Invocation(k.channel, ReadHandler)];
        case Some(WriteHandler) =>
          if HasQueue(r, k.channel) {
            var w := Write(r, k.channel, env.socket(k.channel));
            r := w.state;
          } else {
            escaped := true;
          }
          ran := ran + [Invocation(k.channel, WriteHandler)];
        case None =>
      }
      i := i + 1;
    }
    if escaped {
      RoundStopsAtEscape(s, selected, i, env);
    } else {
      assert selected[..i] == selected;
    }
  }

  /**
   * One pass of the run loop. A change request that throws escapes to the
   * loop's outer handler: the requests before it stay applied, no key is
   * processed and the queue stays for the next pass. Otherwise the queue is
   * applied and cleared, and the round runs over the selected keys from the
   * state the changes left.
   */
  method RunOnce(s: Selector, selected: seq<ReadyKey>, env: Env) returns (r: Selector, ran: seq<Invocation>, escaped: bool)
    ensures Consistent(s) ==> Consistent(r)
    ensures ApplyChanges(s, s.pendingChanges).Failure? ==>
              && ran == [] && escaped
              && r.pendingChanges == s.pendingChanges
              && exists n | 0 <= n < |s.pendingChanges| ::
                   ApplyChanges(s, s.pendingChanges[..n]) == Success(r) && IllegalRegister(s.closed, s.pendingChanges[n])
    ensures ApplyChanges(s, s.pendingChanges).Success? ==>
              && r.pendingChanges == []
              && Progress(r, ran, escaped) == Round(ApplyChanges(s, s.pendingChanges).value.(pendingChanges := []), selected, env)
  {
    var drained, applied, aborted := DrainPendingChanges(s);
    if aborted {
      assert IllegalRegister(drained.closed, s.pendingChanges[applied]);
      assert ApplyChanges(s, s.pendingChanges[..applied]) == Success(drained);
      return drained, [], true;
    }
    r, ran, escaped := ProcessSelectedKeys(drained, selected, env);
  }
}
